=== FILE: README.md ===
# bitsplit in Dafny

A model of the core of `bitsplit`, a Go library and two command-line tools:

- **The splitter** (`bitsplit.go`). `Split` turns a byte stream into n
  "keys" (shares). Every key but the first is random. The first is the data
  minus the sum of the random keys, byte by byte, modulo 256. `Join` adds all
  the keys back together modulo 256.
- **The AES-GCM framing** (`bitsplit.go`). `AesGCMEncrypt` writes a 12-byte
  nonce followed by the sealed data. `AesGCMDecrypt` splits that off again.
- **The legacy copies** of these in `main.go`. They return the underlying
  error instead of wrapping it. `main.go` also holds `openViaInfo`, which
  reads the join configuration file.
- **The filesystem helpers** of `osutil/osutil.go`: `FileExists`,
  `DirExists`, `CopyDir` and `RemoveContents`.
- **The directory locker** (`examples/dirlocker/main.go`).
  - `Lock` snapshots a directory into a temporary directory and encrypts
    every regular file in place. It then writes the key to a key directory,
    under the hex SHA-1 of the key and the file contents, and leaves a
    `.lock` marker holding that name.
  - `Unlock` reverses this.
  - After the snapshot, a failure of a step that changes the directory, or
    of writing or hiding the key file, restores the directory from the snapshot
    (`abortIfError`). A failure to hide the marker is ignored. A failure to
    remove the snapshot at the end, or the key file after unlocking, is only
    logged.
  - The `unlock` command without `-keydir` tries every drive in turn.

## How the model is built

The Dafny modules follow the program's structure:

| module | file | models |
|---|---|---|
| `Common` | `common.dfy` | bytes, `Option`/`Result`, the one tagged error type standing for `IOError`/`OSError`, and `Strip` (the legacy unwrapping) |
| `Splitter` | `splitter.dfy` | `Split`, `Join` |
| `Cipher` | `cipher.dfy` | `AesGCMEncrypt`, `AesGCMDecrypt` over an abstract AEAD |
| `Legacy` | `legacy.dfy` | `split`, `join`, `aesGCMEncrypt`, `aesGCMDecrypt` and `openViaInfo` of `main.go` |
| `FileSystem` | `filesystem.dfy` | a filesystem as a map from paths to nodes; `os.Remove`, `os.RemoveAll`, `ioutil.ReadFile`/`WriteFile`, `HideFile`; `FileExists`, `DirExists`, `CopyDir`, `RemoveContents` |
| `DirLocker` | `dirlocker.dfy` | `Lock`, `Unlock`, `abortIfError`, the unlock drive loop |
| `LockProofs` | `lockproofs.dfy` | what the locker guarantees: all-or-nothing, the locked shape, and unlock after lock |

The outside world becomes explicit input to the model:

- **Randomness.** The random source is a `Stream = nat -> Byte`. The splitter
  draws n-1 bytes per data byte, in order. Lock's nonces are a function from
  the walk position to a 12-byte nonce.
- **Crypto primitives.** AES-GCM is a pair of functions `seal`/`open`. The
  round-trip proofs assume only `Cipher.Sound`: `open` undoes `seal` under
  the same key and nonce. SHA-1 is an arbitrary function.
- **Operating-system failures.** A `Faults` value lists the paths at which
  reading, writing, removing or hiding fails.
- **The walk order.** `filepath.Walk`'s lexical order is a function from the
  set of entries to a sequence. `ValidOrder` says that sequence lists every
  entry exactly once.
- **The environment.** `Env` gives the directories `os.TempDir()` and
  `ioutil.TempDir` return (or whether the latter fails), the binary's
  directory, and the user's answers to the two prompts.
- **How a call ends.** Lock and Unlock end in an `Outcome`:
  - a returned code (`Returned`);
  - `os.Exit` after a declined prompt (`Exited`) or after a completed rollback
    (`RolledBack`);
  - a fatal halt from `log.Fatal` or `errorFatal` (`Halted`), with its reason.

  Each outcome carries the filesystem as it was left.

## Model

| member | source | states |
|---|---|---|
| Splitter.Split | bitsplit.go:69-101 | a read error is reported wrapped, and fewer than two keys is refused. Otherwise there are n keys, each as long as the input. Key i >= 1 holds the (i-1)-th random byte drawn for each position, and key 0 plus the sum of those draws is the data byte modulo 256 |
| Splitter.Join | bitsplit.go:111-146 | fewer than two keys is refused before any read. The first failing key's error is reported wrapped. Otherwise the output is the byte-wise modular sum of all keys, zero-padded to the longest key |
| Splitter.MaxLen | bitsplit.go:126-131 | the output length is the length of some key and no key is longer |
| Splitter.FirstError | bitsplit.go:119-124 | reports an error iff some key failed, and then exactly the first failing key's error |
| Splitter.CombineShape | bitsplit.go:126-145 | the joined output is as long as the longest key, and byte i is the sum modulo 256 of the bytes of exactly those keys that reach position i |
| Splitter.SplitJoinRoundTrip | bitsplit.go:69-146 | for every n >= 2 and every random stream, joining all keys that Split produced gives back the original data |
| Splitter.JoinOrderIndependent | bitsplit.go:111-146 | Join depends only on the multiset of keys, not their order |
| Splitter.ColumnSumPermutation | bitsplit.go:133-139 | the column sum is invariant under any permutation of the keys |
| Cipher.Encrypt | bitsplit.go:156-175 | a read error is reported before a bad key length (not 16/24/32). The framed output exists exactly when neither occurs, and it is the nonce followed by `seal(key, nonce, data)` |
| Cipher.Decrypt | bitsplit.go:183-210 | a bad key length is reported before anything is read, then a read error, then input shorter than the nonce, then an authentication failure. Otherwise the result is exactly what `open` gives for the first 12 bytes as nonce and the rest as ciphertext |
| Cipher.EncryptDecryptRoundTrip | bitsplit.go:156-216 | for a sound cipher and a valid key, decrypting the encryption of any data under any nonce gives back the data |
| Legacy.LegacySplit | main.go:101-128 | the read error is returned unwrapped and fewer than two writers is refused; the keys have the same shape as the library's |
| Legacy.LegacyJoin | main.go:138-175 | fewer than two keys is refused, the first read error is returned unwrapped, and the output is the zero-padded modular sum |
| Legacy.LegacyRoundTrip | main.go:101-175 | legacy join of every legacy-split key gives back the data |
| Legacy.LegacyEncrypt | main.go:218-243 | read errors and bad key lengths are returned unwrapped. It succeeds exactly when the input is readable and the key valid, and the output is the nonce followed by the sealed data |
| Legacy.LegacyDecrypt | main.go:245-279 | bad key lengths, read errors, short input and authentication failures are reported unwrapped, in the source's order. Otherwise the result is the `open` of the framed input |
| Legacy.LegacyEncryptDecryptRoundTrip | main.go:218-279 | for a sound cipher and a valid key, legacy decryption of the legacy encryption of any data gives back the data |
| Legacy.SplitLines | main.go:192 | `strings.Split(s, "\n")` gives at least one piece, none containing a newline, and joining them with newlines gives `s` back |
| Legacy.SplitJoinLines | main.go:192 | splitting text made by joining newline-free lines gives back exactly those lines |
| Legacy.NonEmpty | main.go:203-206 | the kept key names are the non-empty ones, each as often as it occurs, and none is empty |
| Legacy.NonEmptyAppend | main.go:203-206 | the filter distributes over concatenation, so the kept names keep their order |
| Legacy.ParseConfig | main.go:185-216 | a read failure is returned as is. Otherwise the output name is the newline-free first line of the file, a prefix ending at the first newline or at the end. Every key name is non-empty and newline-free |
| Legacy.ParseConfigOfLines | main.go:185-216 | a file written as an output line followed by key lines is read back as that output and its non-empty key lines, in order |
| FileSystem.FileExists | osutil/osutil.go:28-34 | true exactly for a path that exists and is not a directory |
| FileSystem.ExistsCases | osutil/osutil.go:28-42 | an existing path is exactly one of a file (`FileExists`) and a directory (`DirExists`); a missing path is neither |
| FileSystem.RemoveAll | examples/dirlocker/main.go:95-98 | removes every entry of the subtree that can be removed. It fails exactly when some entry of the subtree refuses removal, and then keeps those entries and their ancestors and nothing else below the path. Nothing outside the subtree changes. A missing path is not an error |
| FileSystem.Remove | examples/dirlocker/main.go:244 | succeeds iff the path exists, is removable and has nothing below it, and then removes just that path |
| FileSystem.ReadFile | examples/dirlocker/main.go:191-200 | succeeds iff the path is a readable file, giving its contents |
| FileSystem.WriteFile | examples/dirlocker/main.go:148 | succeeds iff the path is not a directory and is writable, and then replaces or creates just that file |
| FileSystem.CopyDir | osutil/osutil.go:110-151 | a missing source is refused as not found and a file source as not a directory, with nothing changed. Nothing outside `dst` changes, error or not. On success `dst` is a directory and every entry below `src` is at the same relative path below `dst`. Everything new is `dst` or a copy of a source entry |
| FileSystem.CopyOne | osutil/osutil.go:119-147 | one walked entry is copied exactly when it exists and is readable and its copy can be created: a directory needs a fresh destination path, a file needs one that is not a directory. A failure changes nothing, because an unreadable directory is reported before `os.Mkdir` runs; a success only sets the destination path to the source node |
| FileSystem.CopyDirSnapshot | osutil/osutil.go:110-151 | a successful copy into a fresh destination makes the destination tree identical to the source tree |
| FileSystem.CopyDirSucceeds | osutil/osutil.go:110-151 | without read or write faults, copying into a fresh destination succeeds |
| FileSystem.CopyStopsAtFirstFailure | osutil/osutil.go:119-150 | a failed walk is the first failing entry, applied after all earlier entries copied without error |
| FileSystem.RemoveContents | osutil/osutil.go:91-108 | a missing directory or a file is an error with nothing changed. Nothing is ever added or altered, and `dir` and everything outside it are kept. On success, in a well-formed tree, nothing below `dir` is left |
| FileSystem.RemoveContentsSucceeds | osutil/osutil.go:91-108 | it succeeds on a readable directory when nothing strictly below it refuses removal, and in a well-formed tree only then |
| FileSystem.RemoveEachSucceeds | osutil/osutil.go:101-106 | removing the listed children one after another succeeds exactly when nothing present below any of them refuses removal |
| DirLocker.Hex | examples/dirlocker/main.go:157 | two lower-case hex digits per byte: the high nibble's digit, then the low nibble's |
| DirLocker.PlaintextsNoFiles | examples/dirlocker/main.go:119-140 | the bytes hashed after the key are empty when no walked entry is a regular file |
| DirLocker.PlaintextsSingle | examples/dirlocker/main.go:119-140 | one walked entry adds its contents to the hash when it is a regular file, and nothing when it is a directory or missing |
| DirLocker.PlaintextsAppend | examples/dirlocker/main.go:119-140 | the hash input of a walk is the hash inputs of its parts joined in walk order, so with the single-entry case it is every file's contents in walk order |
| DirLocker.KeyNameShape | examples/dirlocker/main.go:112-157 | the key file's name is two lower-case hex digits per byte of the SHA-1 result; with no regular file in the walk it is the hex hash of the key alone |
| LockProofs.PlaintextsAgree | examples/dirlocker/main.go:119-140 | the hash input depends only on the tree below the target, so it is the same on the snapshot taken state and the original |
| DirLocker.TransformAll | examples/dirlocker/main.go:119-154 | the walk never adds or removes paths and touches only walked entries. On success every walked file holds the transform of its old contents for its walk position, and directories are left alone |
| DirLocker.TransformKeepsDirs | examples/dirlocker/main.go:119-154 | the walk never turns a file into a directory or a directory into a file, whether or not it fails |
| DirLocker.Snapshot | examples/dirlocker/main.go:72-76 | the snapshot changes nothing outside the temporary directory, and fails whenever the directory is missing |
| DirLocker.SnapshotAbort | examples/dirlocker/main.go:79-85 | a failed snapshot always halts. It reports the snapshot's location exactly when removing the snapshot fails, and otherwise the copy error itself. The filesystem left is the one after that removal |
| DirLocker.Abort | examples/dirlocker/main.go:88-110 | either rolls back, keeping the original cause and leaving nothing of the snapshot, or halts naming the snapshot's location. However it ends, nothing outside the directory and the snapshot changes |
| DirLocker.Lock | examples/dirlocker/main.go:42-170 | codes 1 and 2 for a missing lock or key directory with nothing changed, and a halt for the temp directory. A non-success code or a declined prompt changes nothing. Success needs both directories, a non-temp target and the prompts confirmed |
| DirLocker.Unlock | examples/dirlocker/main.go:173-289 | codes 1 and 2 as for Lock, and a halt for the temp directory. A missing or unreadable marker halts. Code 3 is returned exactly when both directories exist, the target is not the temp directory, the marker is readable and the key file it names is not. A non-success code changes nothing; Unlock never exits through a prompt |
| DirLocker.UnlockDrives | examples/dirlocker/main.go:321-333 | the drive loop never returns a code; an exit is status 0 (or an attempt's own exit); no drives means no key found |
| DirLocker.UnlockAnyDrive | examples/dirlocker/main.go:321-333 | `unlock` without `-keydir` never returns a code, any exit has status 0, and no drives means no key found |
| DirLocker.UnlockDrivesAsWritten | examples/dirlocker/main.go:321-333 | the drive loop with `-dir` resolved against the working directory on each attempt: it never returns a code, no drives means no key found, and an attempt that is not code 3 ends the loop |
| LockProofs.AbortRestores | examples/dirlocker/main.go:88-110 | a completed rollback from a faithful snapshot leaves the directory identical to the original, and without faults the rollback completes |
| LockProofs.SnapshotFaithful | examples/dirlocker/main.go:72-76 | the snapshot changes nothing outside the temporary directory, and a successful one holds an identical copy of the directory |
| LockProofs.SnapshotAbortClean | examples/dirlocker/main.go:79-85 | a failed snapshot that is cleaned up leaves the filesystem exactly as it was, and it is cleaned up whenever nothing below the snapshot refuses removal |
| LockProofs.LockAtomic | examples/dirlocker/main.go:42-170 | Lock is all-or-nothing. A code other than success, an exit or a halt other than a failed rollback or cleanup leaves the filesystem unchanged. A rollback leaves the directory identical to the original and removes the snapshot. However Lock ends, nothing outside the directory, the snapshot and the key file changes. For a key file outside the directory and the snapshot: a walk that fails leaves its path as it was, and on every ending the path is either as it was or holds the key, so a rollback keeps a key file already written |
| LockProofs.LockKeyFile | examples/dirlocker/main.go:119-170 | the key-file half of LockAtomic: a failed walk over the original directory leaves the key file's path untouched, and any ending leaves it untouched or holding the key |
| LockProofs.LockBodyKeyFile | examples/dirlocker/main.go:119-169 | the same for the steps after the snapshot |
| LockProofs.TransformAgree | examples/dirlocker/main.go:119-154 | the walk depends only on the tree below the directory: on two filesystems that agree there it fails alike and leaves the same tree |
| LockProofs.UnlockAtomic | examples/dirlocker/main.go:173-289 | Unlock is all-or-nothing in the same sense. However it ends, other than with success, nothing outside the directory and the snapshot changes |
| LockProofs.LockSucceeds | examples/dirlocker/main.go:42-169 | without faults, Lock returns success when both directories exist, the target is not the system temp directory, both prompts are confirmed, the snapshot directory is new, and no directory stands at the key file's path or the marker's path. The key directory may lie inside the target |
| LockProofs.LockBodySucceeds | examples/dirlocker/main.go:119-169 | without faults, every step after the snapshot succeeds when no directory stands at the key file's path or the marker's path |
| LockProofs.LockSuccess | examples/dirlocker/main.go:112-169 | with the key directory outside the target, a successful Lock leaves every walked entry encrypted in place with the nonce of its walk position, and no entry added or removed except the marker. The marker holds the key file's name and the key file holds the key. Nothing else outside the snapshot changes |
| LockProofs.LockSeals | examples/dirlocker/main.go:112-169 | with a sound cipher and the key directory outside the target, every file of a successfully locked directory decrypts under the key to its original contents, and directories stay directories |
| LockProofs.HexBytesRoundTrip | examples/dirlocker/main.go:157-195 | the key name survives being written to the marker as bytes and read back as a string |
| LockProofs.UnlockOpens | examples/dirlocker/main.go:173-289 | without faults, Unlock of a sealed directory whose marker names a readable key file returns success. The directory is then identical to the original tree, the key file is gone, the snapshot is removed, and nothing else outside the directory changes |
| LockProofs.LockThenUnlock | examples/dirlocker/main.go:42-289 | after a successful Lock, a fault-free Unlock with the same key directory succeeds, restores the directory exactly, and removes the key file. Outside the directory and the two snapshots, the filesystem ends as it began, apart from the key file |
| LockProofs.DriverPicksFirst | examples/dirlocker/main.go:321-333 | the drive loop skips every drive whose key file is unreadable and ends with the outcome of the first other drive |
| LockProofs.DriverNoKey | examples/dirlocker/main.go:321-333 | the loop reports no key found iff the key file is unreadable on every drive, and then nothing has changed |
| LockProofs.UnlockAnyDriveFacts | examples/dirlocker/main.go:318-333 | the same two facts for the loop calling Unlock on each drive |
| LockProofs.DriveLoopDrifts | examples/dirlocker/main.go:321-333 | run from `/home` with `-dir sub` and no key on either drive, the loop as written halts on the second drive with the missing-directory code, where the loop over one resolved directory reports that no key was found |

## Left out

- Reading and writing streams (`io.Reader`, `io.Writer`, `*os.File`): inputs are whole byte sequences or a read error. Write failures of `Split` and `Join` outputs are not modelled.
- Cipher.Encrypt: the final write of the output (bitsplit.go:176-179) is not modelled; the source reports its failure wrapped, so a success of the model is a success of the source only when that write succeeds.
- Cipher.Decrypt: the final write of the plaintext (bitsplit.go:211-214) is not modelled, as for Cipher.Encrypt. The legacy copies ignore that write (main.go:241, 277), so for them nothing is lost.
- `GetSeed`, `rand.Seed` and `rand.Read`: replaced by the explicit random stream and the nonce function.
- AES-GCM and SHA-1 themselves: foreign primitives, kept abstract.
- The command-line glue of `main.go`, flag parsing, prompts (modelled as `Env` answers), log messages and error texts.
- The `lock` command's choice of the last drive as key storage (examples/dirlocker/main.go:305-314): it is user interaction around `Lock`, which is modelled.
- `GetDrives`, `IsFlagPassed`, `IsFlagPassedInSet`, `Prompt`, `Promptf`: environment queries and user interaction.
- `HideFile` internals: only whether it fails is modelled; the hidden attribute itself is invisible in the model.
- File permissions and concurrent modification of the tree. A failure of `os.Chdir` is fatal in the source and assumed not to happen. Errors of `filepath.Abs` are discarded by the source (examples/dirlocker/main.go:50, 180, 184); the model's paths are already absolute. Lock also finds the binary's directory with `filepath.Abs` (line 65) and halts if that fails (line 66); the model takes that directory from `Env` and does not model the failure.
- Creating missing parent directories (`os.MkdirAll`) and failures caused by a missing parent: the model's writes need no parent.
- `openViaInfo` creating the output file and opening the key files: only the parsing of the configuration file is modelled.
- `bitsplit.OSError` is used by the locker and `CopyDir` but is not defined in the bitsplit.go of this snapshot. The model's single tagged `Error` type stands for it.
- DirLocker.ToBytes: converts a string one character per byte rather than encoding UTF-8. This is exact for the hex key names Lock writes to the marker. Unlock reads a marker of any content back one character per byte (DirLocker.FromBytes).
- DirLocker.Lock: requires the snapshot directory to lie apart from the target. The source only refuses a target equal to the system temp directory (line 51). A target containing the system temp directory would copy into itself, and that is not modelled.
- DirLocker.Unlock: requires the snapshot directory to lie apart from the target, as for Lock (line 180).
- DirLocker.Lock: paths are absolute. The source checks a relative `-keydir` against the caller's working directory (line 46) but writes the key file relative to the target after `os.Chdir` (lines 55, 158); that difference is not modelled.
- DirLocker.Unlock: paths are absolute. A relative `-keydir` is checked against the caller's working directory (line 177) but read and removed relative to the target after `os.Chdir` (lines 185, 197, 279); that difference is not modelled.
- DirLocker.Unlock: the marker's content is used as one path component below the key directory. In the source a marker holding `/`, `.` or `..` names a file elsewhere (lines 197, 279); the model does not represent that.
- DirLocker.UnlockAnyDrive: takes the target directory resolved once. The loop as written resolves a relative `-dir` again on every attempt after `os.Chdir` (line 323); that is DirLocker.UnlockDrivesAsWritten, under Findings.
- LockProofs.UnlockAnyDriveFacts: stated for DirLocker.UnlockAnyDrive, so for one resolved directory on every drive; the loop as written can drift (Findings).
- FileSystem.CopyDir: requires the source and destination to be apart; copying a tree into itself is not modelled.
- Symbolic links: entries are directories or regular files. The walk in Lock and Unlock and the copy in CopyDir follow a link when they read or write it (examples/dirlocker/main.go:126, 148; osutil/osutil.go:138-142), so a link to a file outside the directory would have that file encrypted and the link replaced by a plain file on rollback; that is not modelled, and the frame statements (LockProofs.LockAtomic, LockProofs.UnlockAtomic) hold for trees without links.
- LockProofs.LockAtomic: holds for trees without symbolic links (above), and its key-file clauses are stated only for a key file outside the directory and the snapshot; a key file inside the directory is rolled back with it.
- FileSystem.RemoveContents: lists the children in an abstract order. Its completeness, and the only-if half of FileSystem.RemoveContentsSucceeds, are stated only for well-formed trees (every entry's parent is a directory).
- DirLocker.UnlockDrives: evaluates every attempt on the filesystem the loop started with. An attempt that reports an unreadable key file leaves the filesystem unchanged (the contract of DirLocker.Unlock), but it does change the working directory, which this driver does not carry over (Findings).
- FileSystem.RemoveAll: the error names the path given, not the entry that refused removal, and a directory that cannot be listed is not a failure of its own.
- LockProofs.LockSuccess: assumes the key directory is outside the target. The source accepts a key directory inside it (line 46); the key file then lies in the locked tree and replaces any walked file of the same name after that file was encrypted, so the shape stated does not hold there. LockProofs.LockSucceeds covers that case only for success.
- LockProofs.LockSeals: assumes the key directory is outside the target, for the same reason as LockProofs.LockSuccess: a key file written inside the target is not sealed.
- LockProofs.LockSucceeds: stated for a fault-free environment and in one direction; that a directory at the key file's or the marker's path makes Lock roll back is not stated.
- LockProofs.LockThenUnlock: assumes the tree is well formed, the key directory is outside the locked directory, no marker existed before, and each temporary directory is new, inside an existing directory and apart from the target.
- LockProofs.UnlockOpens: stated for a fault-free environment; with faults, only all-or-nothing (LockProofs.UnlockAtomic) is claimed.

## Findings

| source | as written | input that shows it | evidently intended | confidence | as-written member | corrected member |
|---|---|---|---|---|---|---|
| examples/dirlocker/main.go:321-333 | each drive calls `Unlock(*lockDir, d)` with the `-dir` argument as given, but an attempt ending in code 3 has already changed the working directory into the target (line 185), so a relative `-dir` is resolved again from inside the target | `unlock -dir sub` from `/home`, with no key file on the first drive: the second drive is tried on `/home/sub/sub`, which does not exist, and the run halts reporting a missing directory | every drive is tried on the same directory, `/home/sub` | not executed; high for any relative `-dir` other than the default `.` | DirLocker.UnlockDrivesAsWritten, LockProofs.DriveLoopDrifts | DirLocker.UnlockAnyDrive, LockProofs.UnlockAnyDriveFacts |

=== FILE: cipher.dfy ===
/** The ciphertext framing of `AesGCMEncrypt` / `AesGCMDecrypt` in
    bitsplit.go.  AES-GCM itself is an abstract authenticated cipher: a pair
    of functions `seal` and `open`, of which the model assumes only that
    `open` undoes `seal` under the same key and nonce. */
module Cipher {
  import opened Common

  /** The nonce length of the standard GCM construction (`NonceSize()`). */
  const NonceSize: nat := 12

  type Nonce = s: seq<Byte> | |s| == NonceSize
    witness [0, 0, 0, 0, 0, 0, 0, 0, 0, 0, 0, 0]

  /** `aes.NewCipher` accepts AES-128, AES-192 and AES-256 keys only. */
  predicate ValidKeyLength(n: nat) {
    n == 16 || n == 24 || n == 32
  }

  /** An authenticated cipher: `seal(key, nonce, plaintext)` gives the
      sealed bytes (ciphertext and tag) and `open` checks and inverts them. */
  datatype Aead = Aead(
    seal: (seq<Byte>, Nonce, seq<Byte>) -> seq<Byte>,
    open: (seq<Byte>, Nonce, seq<Byte>) -> Option<seq<Byte>>)

  /** The one property of AES-GCM the model relies on. */
  ghost predicate Sound(c: Aead) {
    forall key: seq<Byte>, nonce: Nonce, p: seq<Byte> {:trigger c.seal(key, nonce, p)} ::
      ValidKeyLength(|key|) ==> c.open(key, nonce, c.seal(key, nonce, p)) == Some(p)
  }

  /** Encrypt: a read failure is reported first, then a bad key length;
      otherwise the output is the nonce followed by the sealed plaintext. */
  function Encrypt(input: Result<seq<Byte>>, key: seq<Byte>, nonce: Nonce, c: Aead)
    : (r: Result<seq<Byte>>)
    ensures input.Err? ==> r == Err(Wrapped(ReadingInput, input.error))
    ensures input.Ok? && !ValidKeyLength(|key|) ==>
      r == Err(Wrapped(CipherSetup, Failed(InvalidKeySize)))
    ensures r.Ok? <==> input.Ok? && ValidKeyLength(|key|)
    ensures r.Ok? ==> |r.value| >= NonceSize && r.value[..NonceSize] == nonce
    ensures r.Ok? ==> r.value[NonceSize..] == c.seal(key, nonce, input.value)
  {
    match input
    case Err(e) => Err(Wrapped(ReadingInput, e))
    case Ok(data) =>
      if !ValidKeyLength(|key|) then Err(Wrapped(CipherSetup, Failed(InvalidKeySize)))
      else Ok(nonce + c.seal(key, nonce, data))
  }

  /** Decrypt: a bad key length is reported before anything is read, then a
      read failure, then input shorter than a nonce; otherwise the first
      NonceSize bytes are the nonce and the rest is handed to `open`. */
  function Decrypt(input: Result<seq<Byte>>, key: seq<Byte>, c: Aead)
    : (r: Result<seq<Byte>>)
    ensures !ValidKeyLength(|key|) ==> r == Err(Wrapped(CipherSetup, Failed(InvalidKeySize)))
    ensures ValidKeyLength(|key|) && input.Err? ==> r == Err(Wrapped(ReadingInput, input.error))
    ensures ValidKeyLength(|key|) && input.Ok? && |input.value| < NonceSize ==>
      r == Err(Failed(MalformedInput))
    ensures r.Ok? ==>
      && ValidKeyLength(|key|) && input.Ok? && |input.value| >= NonceSize
      && c.open(key, input.value[..NonceSize], input.value[NonceSize..]) == Some(r.value)
    ensures (&& ValidKeyLength(|key|) && input.Ok? && |input.value| >= NonceSize
             && c.open(key, input.value[..NonceSize], input.value[NonceSize..]).None?) ==>
      r == Err(Wrapped(Decrypting, Failed(AuthenticationFailure)))
    ensures (&& ValidKeyLength(|key|) && input.Ok? && |input.value| >= NonceSize
             && c.open(key, input.value[..NonceSize], input.value[NonceSize..]).Some?) ==>
      r == Ok(c.open(key, input.value[..NonceSize], input.value[NonceSize..]).value)
  {
    if !ValidKeyLength(|key|) then Err(Wrapped(CipherSetup, Failed(InvalidKeySize)))
    else
      match input
      case Err(e) => Err(Wrapped(ReadingInput, e))
      case Ok(data) =>
        if |data| < NonceSize then Err(Failed(MalformedInput))
        else
          match c.open(key, data[..NonceSize], data[NonceSize..])
          case None => Err(Wrapped(Decrypting, Failed(AuthenticationFailure)))
          case Some(p) => Ok(p)
  }

  /** Decryption undoes encryption under the same key, whatever the nonce. */
  lemma EncryptDecryptRoundTrip(p: seq<Byte>, key: seq<Byte>, nonce: Nonce, c: Aead)
    requires Sound(c)
    requires ValidKeyLength(|key|)
    ensures Encrypt(Ok(p), key, nonce, c).Ok?
    ensures Decrypt(Ok(Encrypt(Ok(p), key, nonce, c).value), key, c) == Ok(p)
  {
    var blob := Encrypt(Ok(p), key, nonce, c).value;
    assert blob[..NonceSize] == nonce;
    assert blob[NonceSize..] == c.seal(key, nonce, p);
  }
}

=== FILE: common.dfy ===
/** Shared vocabulary of the model: bytes, optional values, results and the
    single tagged error type that stands for both `bitsplit.IOError` and
    `bitsplit.OSError` of the original program. */
module Common {

  /** An unsigned 8-bit value; arithmetic on bytes is written out modulo 256. */
  type Byte = b: int | 0 <= b < 256

  datatype Option<+T> = None | Some(value: T)

  datatype Result<+T> = Ok(value: T) | Err(error: Error)

  /** The kind of a primitive failure, as reported by the operating system
      or by one of the library checks. */
  datatype ErrorKind =
    | InvalidArgument        // fewer than two shares
    | ReadFailure            // a read of a file or stream failed
    | WriteFailure           // a write of a file failed
    | RemoveFailure          // a removal failed
    | HideFailure            // the hidden attribute could not be set
    | NotFound               // the path does not exist
    | IsDirectory            // a file operation was applied to a directory
    | NotDirectory           // a directory operation was applied to a file
    | AlreadyExists          // a directory to be created already exists
    | InvalidKeySize         // the AES key is not 16, 24 or 32 bytes long
    | MalformedInput         // ciphertext shorter than the nonce
    | AuthenticationFailure  // the GCM tag did not verify

  /** Where a wrapped error was raised; a path context carries the path. */
  datatype Context<+P> =
    | ReadingInput
    | ReadingShare
    | CipherSetup
    | Decrypting
    | AtPath(path: P)

  /** A tagged error: a primitive failure, possibly wrapped in the context in
      which the library reported it (the `details` of the Go error struct). */
  datatype Error =
    | Failed(kind: ErrorKind)
    | Wrapped(context: Context<seq<string>>, cause: Error)
  {
    /** The primitive failure at the bottom of the wrapping. */
    function Root(): ErrorKind {
      match this
      case Failed(k) => k
      case Wrapped(_, e) => e.Root()
    }
  }

  /** The older copies of the library in main.go return the underlying error
      where the newer ones wrap it: dropping one layer of context. */
  function Strip(e: Error): (r: Error)
    ensures r.Root() == e.Root()
    ensures e.Failed? ==> r == e
  {
    match e
    case Failed(_) => e
    case Wrapped(_, cause) => cause
  }

  function StripResult<T>(r: Result<T>): (s: Result<T>)
    ensures r.Ok? <==> s.Ok?
    ensures r.Ok? ==> s == r
    ensures r.Err? ==> s.error == Strip(r.error)
    ensures r.Err? ==> s.error.Root() == r.error.Root()
  {
    match r
    case Ok(v) => Ok(v)
    case Err(e) => Err(Strip(e))
  }
}

=== FILE: dirlocker.dfy ===
/** The transactional directory locker of examples/dirlocker/main.go.
    `Lock` snapshots a directory, encrypts every regular file in place,
    stores the key under a content-derived name in a key directory and
    leaves a `.lock` marker; `Unlock` reverses it.  Any failure after the
    snapshot restores the directory from the snapshot. */
module DirLocker {
  import opened Common
  import opened FileSystem
  import Cipher

  const LockFileName: string := ".lock"

  /** Length of the generated AES-256 key. */
  const KeySize: nat := 32

  /** The return codes of Lock and Unlock. */
  datatype Code = Success | LockDirNotExist | KeyDirNotExist | CantReadKeyFile {
    function Value(): (v: nat)
      ensures v <= 3
      ensures this == Success <==> v == 0
    {
      match this
      case Success => 0
      case LockDirNotExist => 1
      case KeyDirNotExist => 2
      case CantReadKeyFile => 3
    }
  }

  /** Why the process was halted by `log.Fatal` or `errorFatal`. */
  datatype Halt =
    | TempDirTarget                        // the target is the system temporary directory
    | TempDirUnavailable                   // ioutil.TempDir failed
    | SnapshotFailed(cause: Error)         // copying into the snapshot failed
    | SnapshotCleanupFailed(tmp: Path)     // ... and the snapshot could not be removed
    | RollbackFailed(tmp: Path, cause: Error)  // restoring failed; the files are in tmp
    | NotLocked                            // no lock marker
    | MarkerUnreadable                     // the lock marker could not be read
    | DriveFailed(code: Code)              // a drive gave a code other than 0 or 3
    | NoKeyFound                           // no drive held the key

  /** How a call ends: a returned code, `os.Exit` after a declined prompt or
      after a completed rollback, or a fatal halt. */
  datatype Outcome =
    | Returned(code: Code, fs: FS)
    | Exited(status: nat, fs: FS)
    | RolledBack(cause: Error, fs: FS)
    | Halted(reason: Halt, fs: FS)

  /** What the environment decides: `os.TempDir()`, the directory of the
      running binary, the directory `ioutil.TempDir` creates (or whether it
      fails), injected faults, the walk order and the answers to the two
      prompts. */
  datatype Env = Env(
    sysTmp: Path,
    execDir: Path,
    tmp: Path,
    tmpFails: bool,
    faults: Faults,
    order: WalkOrder,
    confirmRelock: bool,
    confirmBinary: bool)

  /** The foreign primitives: AES-GCM and SHA-1. */
  datatype Crypto = Crypto(aead: Cipher.Aead, sha1: seq<Byte> -> seq<Byte>)

  // ---- key names ----

  /** The digits of `hex.EncodeToString`: 0-9 and lower-case a-f. */
  predicate IsHexDigit(ch: char) {
    '0' <= ch <= '9' || 'a' <= ch <= 'f'
  }

  /** The digit for `d` in the table "0123456789abcdef". */
  function HexDigit(d: int): (ch: char)
    requires 0 <= d < 16
    ensures IsHexDigit(ch)
  {
    if d < 10 then ('0' as int + d) as char else ('a' as int + d - 10) as char
  }

  /** `hex.EncodeToString`: two lower-case hex digits per byte, high nibble
      first. */
  function Hex(bs: seq<Byte>): (s: string)
    ensures |s| == 2 * |bs|
    ensures forall i :: 0 <= i < |s| ==> IsHexDigit(s[i])
    ensures forall i :: 0 <= i < |bs| ==>
      s[2 * i] == HexDigit(bs[i] / 16) && s[2 * i + 1] == HexDigit(bs[i] % 16)
  {
    if |bs| == 0 then ""
    else [HexDigit(bs[0] / 16), HexDigit(bs[0] % 16)] + Hex(bs[1..])
  }

  /** `[]byte(s)` for a string of one-byte characters. */
  function ToBytes(s: string): (b: seq<Byte>)
    ensures |b| == |s|
  {
    seq(|s|, i requires 0 <= i < |s| => (s[i] as int) % 256)
  }

  /** `string(b)`. */
  function FromBytes(b: seq<Byte>): (s: string)
    ensures |s| == |b|
  {
    seq(|b|, i requires 0 <= i < |b| => b[i] as char)
  }

  /** The file contents of the walked entries, in walk order. */
  function Plaintexts(fs: FS, root: Path, rels: seq<Path>): seq<Byte> {
    if |rels| == 0 then []
    else
      var p := root + rels[0];
      (if p in fs && fs[p].File? then fs[p].data else []) + Plaintexts(fs, root, rels[1..])
  }

  /** A walk without regular files hashes nothing after the key. */
  lemma {:induction false} PlaintextsNoFiles(fs: FS, root: Path, rels: seq<Path>)
    requires forall j :: 0 <= j < |rels| ==> !FileExists(fs, root + rels[j])
    ensures Plaintexts(fs, root, rels) == []
    decreases |rels|
  {
    if |rels| > 0 {
      PlaintextsNoFiles(fs, root, rels[1..]);
    }
  }

  /** One walked entry contributes its contents when it is a regular file,
      and nothing when it is a directory or missing. */
  lemma PlaintextsSingle(fs: FS, root: Path, rel: Path)
    ensures FileExists(fs, root + rel) ==> Plaintexts(fs, root, [rel]) == fs[root + rel].data
    ensures !FileExists(fs, root + rel) ==> Plaintexts(fs, root, [rel]) == []
  {
  }

  /** The hash input of a walk is the concatenation of the hash inputs of
      its parts, so the files are hashed in walk order. */
  lemma {:induction false} PlaintextsAppend(fs: FS, root: Path, a: seq<Path>, b: seq<Path>)
    ensures Plaintexts(fs, root, a + b) == Plaintexts(fs, root, a) + Plaintexts(fs, root, b)
    decreases |a|
  {
    if |a| > 0 {
      assert (a + b)[1..] == a[1..] + b;
      PlaintextsAppend(fs, root, a[1..], b);
    } else {
      assert a + b == b;
    }
  }

  /** The key file's name: the hex SHA-1 of the key followed by the contents
      of every regular file in walk order. */
  function KeyName(c: Crypto, key: seq<Byte>, fs: FS, root: Path, rels: seq<Path>): string {
    Hex(c.sha1(key + Plaintexts(fs, root, rels)))
  }

  /** The key file's name is two hex digits per byte of the hash, and a
      walk without regular files names the key file by the key alone. */
  lemma KeyNameShape(c: Crypto, key: seq<Byte>, fs: FS, root: Path, rels: seq<Path>)
    ensures |KeyName(c, key, fs, root, rels)| == 2 * |c.sha1(key + Plaintexts(fs, root, rels))|
    ensures forall i :: 0 <= i < |KeyName(c, key, fs, root, rels)| ==> IsHexDigit(KeyName(c, key, fs, root, rels)[i])
    ensures (forall j :: 0 <= j < |rels| ==> !FileExists(fs, root + rels[j])) ==>
      KeyName(c, key, fs, root, rels) == Hex(c.sha1(key))
  {
    if forall j :: 0 <= j < |rels| ==> !FileExists(fs, root + rels[j]) {
      PlaintextsNoFiles(fs, root, rels);
      assert key + Plaintexts(fs, root, rels) == key;
    }
  }

  function MarkerPath(dir: Path): Path {
    dir + [LockFileName]
  }

  // ---- the per-file transform ----

  type FileTransform = (nat, seq<Byte>) -> Result<seq<Byte>>

  /** Encryption of the file visited at walk position i. */
  function Sealer(key: seq<Byte>, nonces: nat -> Cipher.Nonce, c: Crypto): FileTransform {
    (i: nat, d: seq<Byte>) => Cipher.Encrypt(Ok(d), key, nonces(i), c.aead)
  }

  function Opener(key: seq<Byte>, c: Crypto): FileTransform {
    (i: nat, d: seq<Byte>) => Cipher.Decrypt(Ok(d), key, c.aead)
  }

  /** `after` is what the walk leaves in place of `before` at position k:
      directories are kept, files are replaced by their transform. */
  ghost predicate Transformed(before: Node, after: Node, f: FileTransform, k: nat) {
    && (before.Dir? ==> after == Dir)
    && (before.File? ==> f(k, before.data).Ok? && after == File(f(k, before.data).value))
  }

  /** The `filepath.Walk` callback of Lock and Unlock over the walked
      entries: directories are skipped, every file is opened, transformed
      and written back, and the first failure ends the walk. */
  function TransformAll(fs: FS, root: Path, rels: seq<Path>, i: nat, faults: Faults, f: FileTransform)
    : (r: Step)
    ensures r.fs.Keys == fs.Keys
    ensures forall q :: q !in Targets(root, rels) ==> Agree(r.fs, fs, q)
    ensures NoDup(rels) && r.err.None? ==>
      forall j :: 0 <= j < |rels| ==>
        root + rels[j] in fs && Transformed(fs[root + rels[j]], r.fs[root + rels[j]], f, i + j)
    decreases |rels|
  {
    if |rels| == 0 then Step(fs, None)
    else
      var p := root + rels[0];
      assert Targets(root, rels) == {p} + Targets(root, rels[1..]);
      if p !in fs then Step(fs, Some(Fail(p, NotFound)))
      else if p in faults.unreadable then Step(fs, Some(Fail(p, ReadFailure)))
      else if fs[p].Dir? then
        var r := TransformAll(fs, root, rels[1..], i + 1, faults, f);
        TransformTail(fs, fs, r, root, rels, i, f);
        r
      else
        match f(i, fs[p].data)
        case Err(e) => Step(fs, Some(Wrapped(AtPath(p), e)))
        case Ok(out) =>
          var w := WriteFile(fs, p, out, faults);
          if w.err.Some? then w
          else
            var r := TransformAll(w.fs, root, rels[1..], i + 1, faults, f);
            TransformTail(fs, w.fs, r, root, rels, i, f);
            r
  }

  /** The walk never turns a file into a directory or back, error or not. */
  lemma {:induction false} TransformKeepsDirs(fs: FS, root: Path, rels: seq<Path>, i: nat, faults: Faults,
                                              f: FileTransform, q: Path)
    ensures DirExists(TransformAll(fs, root, rels, i, faults, f).fs, q) <==> DirExists(fs, q)
    decreases |rels|
  {
    if |rels| > 0 {
      var p := root + rels[0];
      if p in fs && p !in faults.unreadable {
        if fs[p].Dir? {
          TransformKeepsDirs(fs, root, rels[1..], i + 1, faults, f, q);
        } else if f(i, fs[p].data).Ok? {
          var w := WriteFile(fs, p, f(i, fs[p].data).value, faults);
          if w.err.None? {
            TransformKeepsDirs(w.fs, root, rels[1..], i + 1, faults, f, q);
          }
        }
      }
    }
  }

  lemma TransformTail(fs: FS, fs1: FS, r: Step, root: Path, rels: seq<Path>, i: nat, f: FileTransform)
    requires |rels| > 0 && root + rels[0] in fs
    requires fs1.Keys == fs.Keys && r.fs.Keys == fs1.Keys
    requires forall q :: q != root + rels[0] ==> Agree(fs1, fs, q)
    requires root + rels[0] in fs1 && Transformed(fs[root + rels[0]], fs1[root + rels[0]], f, i)
    requires forall q :: q !in Targets(root, rels[1..]) ==> Agree(r.fs, fs1, q)
    requires NoDup(rels[1..]) && r.err.None? ==>
      forall j :: 0 <= j < |rels[1..]| ==>
        root + rels[1..][j] in fs1
        && Transformed(fs1[root + rels[1..][j]], r.fs[root + rels[1..][j]], f, i + 1 + j)
    ensures NoDup(rels) && r.err.None? ==>
      forall j :: 0 <= j < |rels| ==>
        root + rels[j] in fs && Transformed(fs[root + rels[j]], r.fs[root + rels[j]], f, i + j)
  {
    if NoDup(rels) && r.err.None? {
      assert NoDup(rels[1..]);
      var p := root + rels[0];
      assert p !in Targets(root, rels[1..]) by {
        forall rel | rel in rels[1..] ensures root + rel != p {
          UnderJoin(root, rel);
          UnderJoin(root, rels[0]);
        }
      }
      assert Agree(r.fs, fs1, p);
      forall j | 0 <= j < |rels|
        ensures root + rels[j] in fs && Transformed(fs[root + rels[j]], r.fs[root + rels[j]], f, i + j)
      {
        if j > 0 {
          var q := root + rels[j];
          UnderJoin(root, rels[j]);
          UnderJoin(root, rels[0]);
          assert rels[j] == rels[1..][j - 1];
          assert q != p;
          assert Agree(fs1, fs, q);
          assert Transformed(fs1[q], r.fs[q], f, i + 1 + (j - 1));
        }
      }
    }
  }

  // ---- the transaction ----

  /** `ioutil.TempDir` followed by `CopyDir(dir, tmp)`. */
  function Snapshot(fs: FS, dir: Path, env: Env): (r: Step)
    requires Apart(env.tmp, dir)
    ensures forall q :: !Under(env.tmp, q) ==> Agree(r.fs, fs, q)
    ensures !DirExists(fs, dir) ==> r.err.Some?
  {
    CopyDir(fs[env.tmp := Dir], dir, env.tmp, env.order, env.faults)
  }

  /** A failed snapshot: the temporary directory is removed, then the
      process halts. */
  function SnapshotAbort(snap: Step, env: Env): (o: Outcome)
    requires snap.err.Some?
    ensures o.Halted? && (o.reason.SnapshotFailed? || o.reason == SnapshotCleanupFailed(env.tmp))
    ensures o.reason == SnapshotCleanupFailed(env.tmp) <==> RemoveAll(snap.fs, env.tmp, env.faults).err.Some?
    ensures o.reason.SnapshotFailed? ==> o.reason.cause == snap.err.value
    ensures o.fs == RemoveAll(snap.fs, env.tmp, env.faults).fs
  {
    var rm := RemoveAll(snap.fs, env.tmp, env.faults);
    if rm.err.Some? then Halted(SnapshotCleanupFailed(env.tmp), rm.fs)
    else Halted(SnapshotFailed(snap.err.value), rm.fs)
  }

  /** `abortIfError`: remove the target, copy the snapshot back, remove the
      snapshot and exit; a failure of any of the three halts with the
      snapshot's location. */
  function Abort(fs: FS, dir: Path, env: Env, cause: Error): (o: Outcome)
    requires Apart(env.tmp, dir)
    ensures o.RolledBack? || (o.Halted? && o.reason.RollbackFailed? && o.reason.tmp == env.tmp)
    ensures o.RolledBack? ==> o.cause == cause
    ensures o.RolledBack? ==> forall q :: q in o.fs ==> !Under(env.tmp, q)
    ensures AgreeOutside(o.fs, fs, dir, env.tmp)
  {
    var rm := RemoveAll(fs, dir, env.faults);
    if rm.err.Some? then Halted(RollbackFailed(env.tmp, rm.err.value), rm.fs)
    else
      var cp := CopyDir(rm.fs, env.tmp, dir, env.order, env.faults);
      if cp.err.Some? then Halted(RollbackFailed(env.tmp, cp.err.value), cp.fs)
      else
        var rt := RemoveAll(cp.fs, env.tmp, env.faults);
        if rt.err.Some? then Halted(RollbackFailed(env.tmp, rt.err.value), rt.fs)
        else RolledBack(cause, rt.fs)
  }

  /** The part of Lock after a successful snapshot: encrypt every file,
      write the key file and hide it, write the marker; then remove the
      snapshot (a failure there is only logged). */
  function LockBody(fs: FS, lockDir: Path, keyDir: Path, env: Env, key: seq<Byte>,
                    nonces: nat -> Cipher.Nonce, c: Crypto): (o: Outcome)
    requires Apart(env.tmp, lockDir)
    ensures o.Returned? || o.RolledBack? || (o.Halted? && o.reason.RollbackFailed?)
    ensures o.Returned? ==> o.code == Success
  {
    var rels := Walk(fs, lockDir, env.order);
    var enc := TransformAll(fs, lockDir, rels, 0, env.faults, Sealer(key, nonces, c));
    if enc.err.Some? then Abort(enc.fs, lockDir, env, enc.err.value)
    else
      var name := KeyName(c, key, fs, lockDir, rels);
      var wk := WriteFile(enc.fs, keyDir + [name], key, env.faults);
      if wk.err.Some? then Abort(wk.fs, lockDir, env, wk.err.value)
      else
        match Hide(keyDir + [name], env.faults)
        case Some(e) => Abort(wk.fs, lockDir, env, e)
        case None =>
          var wm := WriteFile(wk.fs, MarkerPath(lockDir), ToBytes(name), env.faults);
          if wm.err.Some? then Abort(wm.fs, lockDir, env, wm.err.value)
          else Returned(Success, RemoveAll(wm.fs, env.tmp, env.faults).fs)
  }

  /** Lock(lockDir, keyDir). */
  function Lock(fs: FS, lockDir: Path, keyDir: Path, env: Env, key: seq<Byte>,
                nonces: nat -> Cipher.Nonce, c: Crypto): (o: Outcome)
    requires |key| == KeySize
    requires Apart(env.tmp, lockDir)
    ensures !DirExists(fs, lockDir) ==> o == Returned(LockDirNotExist, fs)
    ensures DirExists(fs, lockDir) && !DirExists(fs, keyDir) ==> o == Returned(KeyDirNotExist, fs)
    ensures o.Returned? && o.code != Success ==> o.fs == fs
    ensures o.Exited? ==> o.status == 0 && o.fs == fs
    ensures DirExists(fs, lockDir) && DirExists(fs, keyDir) && lockDir == env.sysTmp ==>
      o == Halted(TempDirTarget, fs)
    ensures o.Returned? && o.code == Success ==>
      DirExists(fs, lockDir) && DirExists(fs, keyDir) && lockDir != env.sysTmp
      && (FileExists(fs, MarkerPath(lockDir)) ==> env.confirmRelock)
      && (lockDir == env.execDir ==> env.confirmBinary)
  {
    if !DirExists(fs, lockDir) then Returned(LockDirNotExist, fs)
    else if !DirExists(fs, keyDir) then Returned(KeyDirNotExist, fs)
    else if lockDir == env.sysTmp then Halted(TempDirTarget, fs)
    else if FileExists(fs, MarkerPath(lockDir)) && !env.confirmRelock then Exited(0, fs)
    else if lockDir == env.execDir && !env.confirmBinary then Exited(0, fs)
    else if env.tmpFails then Halted(TempDirUnavailable, fs)
    else
      var snap := Snapshot(fs, lockDir, env);
      if snap.err.Some? then SnapshotAbort(snap, env)
      else LockBody(snap.fs, lockDir, keyDir, env, key, nonces, c)
  }

  /** The part of Unlock after a successful snapshot: remove the marker,
      decrypt every file, then remove the key file and the snapshot (those
      two failures are only logged). */
  function UnlockBody(fs: FS, dir: Path, keyPath: Path, key: seq<Byte>, env: Env, c: Crypto)
    : (o: Outcome)
    requires Apart(env.tmp, dir)
    ensures o.Returned? || o.RolledBack? || (o.Halted? && o.reason.RollbackFailed?)
    ensures o.Returned? ==> o.code == Success
  {
    var rm := Remove(fs, MarkerPath(dir), env.faults);
    if rm.err.Some? then Abort(rm.fs, dir, env, rm.err.value)
    else
      var dec := TransformAll(rm.fs, dir, Walk(rm.fs, dir, env.order), 0, env.faults, Opener(key, c));
      if dec.err.Some? then Abort(dec.fs, dir, env, dec.err.value)
      else
        var rk := Remove(dec.fs, keyPath, env.faults);
        Returned(Success, RemoveAll(rk.fs, env.tmp, env.faults).fs)
  }

  /** Unlock(dir, keyDir). */
  function Unlock(fs: FS, dir: Path, keyDir: Path, env: Env, c: Crypto): (o: Outcome)
    requires Apart(env.tmp, dir)
    ensures !DirExists(fs, dir) ==> o == Returned(LockDirNotExist, fs)
    ensures DirExists(fs, dir) && !DirExists(fs, keyDir) ==> o == Returned(KeyDirNotExist, fs)
    ensures o.Returned? && o.code != Success ==> o.fs == fs
    ensures (&& DirExists(fs, dir) && DirExists(fs, keyDir) && dir != env.sysTmp
             && !FileExists(fs, MarkerPath(dir))) ==> o == Halted(NotLocked, fs)
    ensures DirExists(fs, dir) && DirExists(fs, keyDir) && dir == env.sysTmp ==>
      o == Halted(TempDirTarget, fs)
    ensures (&& DirExists(fs, dir) && DirExists(fs, keyDir) && dir != env.sysTmp
             && FileExists(fs, MarkerPath(dir)) && ReadFile(fs, MarkerPath(dir), env.faults).Err?) ==>
      o == Halted(MarkerUnreadable, fs)
    ensures o == Halted(NotLocked, fs) || o == Halted(MarkerUnreadable, fs) ==>
      DirExists(fs, dir) && DirExists(fs, keyDir)
    // code 3, in both directions: the key file named by the marker cannot be read
    ensures o.Returned? && o.code == CantReadKeyFile <==>
      && DirExists(fs, dir) && DirExists(fs, keyDir) && dir != env.sysTmp
      && ReadFile(fs, MarkerPath(dir), env.faults).Ok?
      && ReadFile(fs, keyDir + [FromBytes(ReadFile(fs, MarkerPath(dir), env.faults).value)], env.faults).Err?
    ensures !o.Exited?
    ensures o.Halted? ==> !o.reason.NoKeyFound? && !o.reason.DriveFailed?
  {
    if !DirExists(fs, dir) then Returned(LockDirNotExist, fs)
    else if !DirExists(fs, keyDir) then Returned(KeyDirNotExist, fs)
    else if dir == env.sysTmp then Halted(TempDirTarget, fs)
    else if !FileExists(fs, MarkerPath(dir)) then Halted(NotLocked, fs)
    else
      match ReadFile(fs, MarkerPath(dir), env.faults)
      case Err(_) => Halted(MarkerUnreadable, fs)
      case Ok(marker) =>
        var keyPath := keyDir + [FromBytes(marker)];
        match ReadFile(fs, keyPath, env.faults)
        case Err(_) => Returned(CantReadKeyFile, fs)
        case Ok(key) =>
          if env.tmpFails then Halted(TempDirUnavailable, fs)
          else
            var snap := Snapshot(fs, dir, env);
            if snap.err.Some? then SnapshotAbort(snap, env)
            else UnlockBody(snap.fs, dir, keyPath, key, env, c)
  }

  /** How the driver ends once a drive gives something other than code 3. */
  function Finish(o: Outcome): Outcome {
    match o
    case Returned(Success, f) => Exited(0, f)
    case Returned(code, f) => Halted(DriveFailed(code), f)
    case _ => o
  }

  /** The unlock driver without `-keydir`: try each drive in turn, where
      `attempt(d)` is Unlock with key directory `d`; stop on success, go on
      when the key file is unreadable there (which changes nothing), halt on
      any other code, and halt when the drives run out. */
  function UnlockDrives(fs: FS, drives: seq<Path>, attempt: Path -> Outcome): (o: Outcome)
    ensures !o.Returned?
    ensures o.Exited? ==> o.status == 0 || (exists j :: 0 <= j < |drives| && o == attempt(drives[j]))
    ensures |drives| == 0 ==> o == Halted(NoKeyFound, fs)
    decreases |drives|
  {
    if |drives| == 0 then Halted(NoKeyFound, fs)
    else
      var o := attempt(drives[0]);
      if o.Returned? && o.code == CantReadKeyFile then
        var r := UnlockDrives(fs, drives[1..], attempt);
        assert r.Exited? && r.status != 0 ==> exists j :: 0 <= j < |drives| && r == attempt(drives[j]) by {
          if r.Exited? && r.status != 0 {
            var j :| 0 <= j < |drives[1..]| && r == attempt(drives[1..][j]);
            assert drives[1..][j] == drives[j + 1];
          }
        }
        r
      else Finish(o)
  }

  /** `unlock` on the command line without `-keydir`. */
  function UnlockAnyDrive(fs: FS, dir: Path, drives: seq<Path>, env: Env, c: Crypto): (o: Outcome)
    requires Apart(env.tmp, dir)
    ensures !o.Returned?
    ensures o.Exited? ==> o.status == 0
    ensures |drives| == 0 ==> o == Halted(NoKeyFound, fs)
  {
    UnlockDrives(fs, drives, d => Unlock(fs, dir, d, env, c))
  }

  // ---- the working directory ----

  /** A `-dir` argument: an absolute path, or one taken relative to the
      working directory (the default is ".", the empty relative path). */
  datatype DirArg = Absolute(path: Path) | Relative(rel: Path)

  /** `filepath.Abs` of an argument, given the working directory. */
  function Resolve(cwd: Path, a: DirArg): Path {
    match a
    case Absolute(p) => p
    case Relative(rel) => cwd + rel
  }

  /** Resolving the argument again from where it led stays apart from the
      temporary directory: a relative argument only descends further. */
  lemma ResolveAgain(tmp: Path, cwd: Path, a: DirArg)
    requires Apart(tmp, Resolve(cwd, a))
    ensures Apart(tmp, Resolve(Resolve(cwd, a), a))
  {
    if a.Relative? {
      ApartExtend(tmp, Resolve(cwd, a), a.rel);
    }
  }

  /** The drive loop as written: every attempt resolves `-dir` afresh
      against the working directory, and an attempt that ends with code 3
      has already changed the working directory to the directory it
      resolved (Unlock changes directory before it reads the key file). */
  function UnlockDrivesAsWritten(fs: FS, cwd: Path, dir: DirArg, drives: seq<Path>, env: Env, c: Crypto)
    : (o: Outcome)
    requires Apart(env.tmp, Resolve(cwd, dir))
    ensures !o.Returned?
    ensures |drives| == 0 ==> o == Halted(NoKeyFound, fs)
    ensures |drives| > 0 && !(Unlock(fs, Resolve(cwd, dir), drives[0], env, c).Returned?
                              && Unlock(fs, Resolve(cwd, dir), drives[0], env, c).code == CantReadKeyFile) ==>
      o == Finish(Unlock(fs, Resolve(cwd, dir), drives[0], env, c))
    decreases |drives|
  {
    if |drives| == 0 then Halted(NoKeyFound, fs)
    else
      var d := Resolve(cwd, dir);
      var o := Unlock(fs, d, drives[0], env, c);
      if o.Returned? && o.code == CantReadKeyFile then
        ResolveAgain(env.tmp, cwd, dir);
        UnlockDrivesAsWritten(fs, d, dir, drives[1..], env, c)
      else Finish(o)
  }
}

=== FILE: filesystem.dfy ===
/** An abstract filesystem and the helpers of osutil/osutil.go on it.  A
    filesystem maps absolute paths (sequences of names) to nodes; failures
    of the operating system are injected through a `Faults` description. */
module FileSystem {
  import opened Common

  type Path = seq<string>

  datatype Node = Dir | File(data: seq<Byte>)

  type FS = map<Path, Node>

  /** The paths at which the operating system refuses an operation. */
  datatype Faults = Faults(
    unreadable: set<Path>,   // opening, reading or listing fails
    unwritable: set<Path>,   // creating or writing fails
    unremovable: set<Path>,  // removing fails
    unhideable: set<Path>)   // setting the hidden attribute fails

  const NoFaults: Faults := Faults({}, {}, {}, {})

  /** The filesystem after an operation, and the error it reported if any. */
  datatype Step = Step(fs: FS, err: Option<Error>)

  function Fail(p: Path, k: ErrorKind): Error {
    Wrapped(AtPath(p), Failed(k))
  }

  /** `p` is `root` or lies below it. */
  predicate Under(root: Path, p: Path) {
    |root| <= |p| && p[..|root|] == root
  }

  /** Neither path lies below the other. */
  predicate Apart(a: Path, b: Path) {
    !Under(a, b) && !Under(b, a)
  }

  /** `a` and `b` hold the same node (or none) at `q`. */
  predicate Agree(a: FS, b: FS, q: Path) {
    (q in a <==> q in b) && (q in a ==> a[q] == b[q])
  }

  /** `a` and `b` agree everywhere outside the subtrees of `x` and `y`. */
  ghost predicate AgreeOutside(a: FS, b: FS, x: Path, y: Path) {
    forall q :: !Under(x, q) && !Under(y, q) ==> Agree(a, b, q)
  }

  /** Extending a path keeps it apart from every path it was apart from. */
  lemma ApartExtend(a: Path, b: Path, x: Path)
    requires Apart(a, b)
    ensures Apart(a, b + x)
  {
    if |a| <= |b| {
      assert (b + x)[..|a|] == b[..|a|];
    } else if |a| <= |b + x| {
      assert (b + x)[..|a|][..|b|] == b;
    }
  }

  lemma UnderJoin(root: Path, rel: Path)
    ensures Under(root, root + rel) && (root + rel)[|root|..] == rel
  {
    assert (root + rel)[..|root|] == root;
  }

  /** Two prefixes of one path are prefixes of each other. */
  lemma Comparable(a: Path, b: Path, p: Path)
    ensures Under(a, p) && Under(b, p) ==> Under(a, b) || Under(b, a)
  {
    if Under(a, p) && Under(b, p) {
      if |a| <= |b| {
        assert b[..|a|] == p[..|b|][..|a|] == p[..|a|];
      } else {
        assert a[..|b|] == p[..|a|][..|b|] == p[..|b|];
      }
    }
  }

  // ---- FileExists / DirExists ----

  predicate DirExists(fs: FS, p: Path) {
    p in fs && fs[p] == Dir
  }

  /** True exactly for a path that exists and is not a directory. */
  predicate FileExists(fs: FS, p: Path)
    ensures FileExists(fs, p) <==> p in fs && !DirExists(fs, p)
  {
    p in fs && fs[p].File?
  }

  /** An existing path is exactly one of a file and a directory; a missing
      path is neither. */
  lemma ExistsCases(fs: FS, p: Path)
    ensures p in fs <==> FileExists(fs, p) || DirExists(fs, p)
    ensures !(FileExists(fs, p) && DirExists(fs, p))
  {
  }

  // ---- relative entries and the walk order ----

  /** The non-empty relative paths of the entries strictly below `root`. */
  function Entries(fs: FS, root: Path): set<Path> {
    set q | q in fs && Under(root, q) && |q| > |root| :: q[|root|..]
  }

  lemma EntriesMember(fs: FS, root: Path, rel: Path)
    ensures rel in Entries(fs, root) <==> rel != [] && root + rel in fs
  {
    UnderJoin(root, rel);
    if rel in Entries(fs, root) {
      var q :| q in fs && Under(root, q) && |q| > |root| && q[|root|..] == rel;
      assert q == q[..|root|] + q[|root|..];
    }
  }

  predicate NoDup(w: seq<Path>) {
    forall i, j :: 0 <= i < j < |w| ==> w[i] != w[j]
  }

  /** `w` lists every element of `s` exactly once. */
  predicate Enumerates(w: seq<Path>, s: set<Path>) {
    && NoDup(w)
    && (forall j :: 0 <= j < |w| ==> w[j] in s)
    && (forall x :: x in s ==> x in w)
  }

  /** The order in which `filepath.Walk` visits the entries below a root, as
      a function of the set of their relative paths (lexical in Go). */
  type WalkOrder = set<Path> -> seq<Path>

  ghost predicate ValidOrder(order: WalkOrder) {
    forall s :: Enumerates(order(s), s)
  }

  function Walk(fs: FS, root: Path, order: WalkOrder): seq<Path> {
    order(Entries(fs, root))
  }

  // ---- primitive operations ----

  /** The filesystem without `p` and everything below it. */
  function Prune(fs: FS, p: Path): (r: FS)
    ensures forall q :: q in r <==> q in fs && !Under(p, q)
    ensures forall q :: q in r ==> r[q] == fs[q]
  {
    map q | q in fs && !Under(p, q) :: fs[q]
  }

  /** An entry at or below `q`, and below `p`, refuses removal, so `q`
      survives a removal of `p` (a directory is only removed once empty). */
  predicate Blocked(fs: FS, p: Path, q: Path, faults: Faults) {
    exists u :: u in fs && u in faults.unremovable && Under(p, u) && Under(q, u)
  }

  /** `os.RemoveAll`: removes `p` and its subtree, carrying on past entries
      that refuse removal; it fails exactly when one of them is present, and
      then leaves those entries and their ancestors below `p`.  A missing
      path is not an error. */
  function RemoveAll(fs: FS, p: Path, faults: Faults): (r: Step)
    ensures r.err.None? <==> forall u :: u in fs && Under(p, u) ==> u !in faults.unremovable
    ensures forall q :: q in r.fs <==> q in fs && (!Under(p, q) || Blocked(fs, p, q, faults))
    ensures forall q :: q in r.fs ==> r.fs[q] == fs[q]
    ensures r.err.None? ==> r.fs == Prune(fs, p)
  {
    if exists u :: u in fs && u in faults.unremovable && Under(p, u) then
      Step(map q | q in fs && (!Under(p, q) || Blocked(fs, p, q, faults)) :: fs[q],
           Some(Fail(p, RemoveFailure)))
    else Step(Prune(fs, p), None)
  }

  /** Some entry lies strictly below `p`. */
  predicate HasChildren(fs: FS, p: Path) {
    exists q :: q in fs && Under(p, q) && q != p
  }

  /** `os.Remove`: removes one file or empty directory. */
  function Remove(fs: FS, p: Path, faults: Faults): (r: Step)
    ensures r.err.None? <==> p in fs && p !in faults.unremovable && !HasChildren(fs, p)
    ensures r.err.Some? ==> r.fs == fs
    ensures r.err.None? ==> r.fs == fs - {p}
  {
    if p !in fs then Step(fs, Some(Fail(p, NotFound)))
    else if p in faults.unremovable then Step(fs, Some(Fail(p, RemoveFailure)))
    else if HasChildren(fs, p) then Step(fs, Some(Fail(p, RemoveFailure)))
    else Step(fs - {p}, None)
  }

  /** `ioutil.ReadFile`. */
  function ReadFile(fs: FS, p: Path, faults: Faults): (r: Result<seq<Byte>>)
    ensures r.Ok? <==> FileExists(fs, p) && p !in faults.unreadable
    ensures r.Ok? ==> fs[p] == File(r.value)
  {
    if p !in fs then Err(Fail(p, NotFound))
    else if fs[p].Dir? then Err(Fail(p, IsDirectory))
    else if p in faults.unreadable then Err(Fail(p, ReadFailure))
    else Ok(fs[p].data)
  }

  /** `ioutil.WriteFile`: creates or truncates a file. */
  function WriteFile(fs: FS, p: Path, data: seq<Byte>, faults: Faults): (r: Step)
    ensures r.err.None? <==> !DirExists(fs, p) && p !in faults.unwritable
    ensures r.err.Some? ==> r.fs == fs
    ensures r.err.None? ==> r.fs == fs[p := File(data)]
  {
    if p in fs && fs[p].Dir? then Step(fs, Some(Fail(p, IsDirectory)))
    else if p in faults.unwritable then Step(fs, Some(Fail(p, WriteFailure)))
    else Step(fs[p := File(data)], None)
  }

  /** `HideFile`: only its failure is visible in the model. */
  function Hide(p: Path, faults: Faults): (r: Option<Error>)
    ensures r.None? <==> p !in faults.unhideable
  {
    if p in faults.unhideable then Some(Fail(p, HideFailure)) else None
  }

  // ---- CopyDir ----

  /** Copies one walked entry `src + rel` to `dst + rel`.  The walk reads a
      directory's listing before visiting it, so an unreadable entry fails
      before anything is written; otherwise a directory is created with
      `os.Mkdir` (which refuses an existing path) and a file is read and
      written. */
  function CopyOne(fs: FS, src: Path, dst: Path, rel: Path, faults: Faults): (r: Step)
    ensures r.err.None? <==>
      && src + rel in fs && src + rel !in faults.unreadable && dst + rel !in faults.unwritable
      && (if fs[src + rel].Dir? then dst + rel !in fs else !DirExists(fs, dst + rel))
    ensures r.err.Some? ==> r.fs == fs
    ensures r.err.None? ==> r.fs == fs[dst + rel := fs[src + rel]]
    ensures forall q :: q != dst + rel ==> Agree(r.fs, fs, q)
    ensures DirExists(fs, dst) && r.err.None? ==> DirExists(r.fs, dst)
  {
    var p := src + rel;
    var q := dst + rel;
    if p !in fs then Step(fs, Some(Fail(p, NotFound)))
    else if p in faults.unreadable then Step(fs, Some(Fail(p, ReadFailure)))
    else if fs[p].Dir? then
      if q in fs then Step(fs, Some(Fail(q, AlreadyExists)))
      else if q in faults.unwritable then Step(fs, Some(Fail(q, WriteFailure)))
      else Step(fs[q := Dir], None)
    else
      var w := WriteFile(fs, q, fs[p].data, faults);
      Step(w.fs, w.err)
  }

  function Targets(dst: Path, rels: seq<Path>): set<Path> {
    set rel | rel in rels :: dst + rel
  }

  /** Copies the walked entries in order, stopping at the first failure. */
  function CopyEntries(fs: FS, src: Path, dst: Path, rels: seq<Path>, faults: Faults): (r: Step)
    ensures forall q :: q !in Targets(dst, rels) ==> Agree(r.fs, fs, q)
    ensures DirExists(fs, dst) && r.err.None? ==> DirExists(r.fs, dst)
    ensures Apart(src, dst) && NoDup(rels) && r.err.None? ==>
      forall j :: 0 <= j < |rels| ==>
        src + rels[j] in fs && dst + rels[j] in r.fs && r.fs[dst + rels[j]] == fs[src + rels[j]]
    decreases |rels|
  {
    if |rels| == 0 then Step(fs, None)
    else
      var s := CopyOne(fs, src, dst, rels[0], faults);
      if s.err.Some? then s
      else
        var r := CopyEntries(s.fs, src, dst, rels[1..], faults);
        assert Targets(dst, rels) == {dst + rels[0]} + Targets(dst, rels[1..]);
        if Apart(src, dst) && NoDup(rels) && r.err.None? then
          CopyEntriesContents(fs, s, r, src, dst, rels, faults);
          r
        else r
  }

  lemma CopyEntriesContents(fs: FS, s: Step, r: Step, src: Path, dst: Path, rels: seq<Path>, faults: Faults)
    requires |rels| > 0 && Apart(src, dst) && NoDup(rels)
    requires s == CopyOne(fs, src, dst, rels[0], faults) && s.err.None?
    requires forall q :: q !in Targets(dst, rels[1..]) ==> Agree(r.fs, s.fs, q)
    requires r.err.None?
    requires forall j :: 0 <= j < |rels[1..]| ==>
      src + rels[1..][j] in s.fs && dst + rels[1..][j] in r.fs
      && r.fs[dst + rels[1..][j]] == s.fs[src + rels[1..][j]]
    ensures forall j :: 0 <= j < |rels| ==>
      src + rels[j] in fs && dst + rels[j] in r.fs && r.fs[dst + rels[j]] == fs[src + rels[j]]
  {
    forall j | 0 <= j < |rels|
      ensures src + rels[j] in fs && dst + rels[j] in r.fs && r.fs[dst + rels[j]] == fs[src + rels[j]]
    {
      UnderJoin(src, rels[j]);
      UnderJoin(dst, rels[0]);
      Comparable(src, dst, src + rels[j]);
      assert src + rels[j] != dst + rels[0];
      if j == 0 {
        assert dst + rels[0] !in Targets(dst, rels[1..]) by {
          forall rel | rel in rels[1..] ensures dst + rel != dst + rels[0] {
            UnderJoin(dst, rel);
          }
        }
      } else {
        assert rels[j] == rels[1..][j - 1];
      }
    }
  }

  /** `CopyDir(src, dst)`: refuses a source that is not a directory, creates
      `dst` if needed, then copies every entry below `src` (but not `src`
      itself) to the same relative path below `dst`, stopping at the first
      failing entry.  Nothing outside `dst` changes, error or not. */
  function CopyDir(fs: FS, src: Path, dst: Path, order: WalkOrder, faults: Faults): (r: Step)
    requires Apart(src, dst)
    ensures src !in fs ==> r == Step(fs, Some(Fail(src, NotFound)))
    ensures src in fs && !DirExists(fs, src) ==> r == Step(fs, Some(Fail(src, NotDirectory)))
    ensures forall q :: !Under(dst, q) ==> Agree(r.fs, fs, q)
    ensures r.err.None? ==> DirExists(r.fs, dst)
    ensures r.err.None? && ValidOrder(order) ==>
      forall rel :: rel != [] && src + rel in fs ==>
        dst + rel in r.fs && r.fs[dst + rel] == fs[src + rel]
    ensures ValidOrder(order) ==>
      forall q :: q in r.fs && q !in fs ==>
        q == dst || (Under(dst, q) && q[|dst|..] in Entries(fs, src))
  {
    if src !in fs then Step(fs, Some(Fail(src, NotFound)))
    else if !DirExists(fs, src) then Step(fs, Some(Fail(src, NotDirectory)))
    else if dst in fs && fs[dst].File? then Step(fs, Some(Fail(dst, NotDirectory)))
    else if dst !in fs && dst in faults.unwritable then Step(fs, Some(Fail(dst, WriteFailure)))
    else
      var fs1 := fs[dst := Dir];
      if src in faults.unreadable then Step(fs1, Some(Fail(src, ReadFailure)))
      else
        var rels := Walk(fs, src, order);
        var r := CopyEntries(fs1, src, dst, rels, faults);
        CopyDirFacts(fs, fs1, r, src, dst, order, rels, faults);
        r
  }

  lemma CopyDirFacts(fs: FS, fs1: FS, r: Step, src: Path, dst: Path, order: WalkOrder,
                     rels: seq<Path>, faults: Faults)
    requires Apart(src, dst) && DirExists(fs, src)
    requires fs1 == fs[dst := Dir] && rels == Walk(fs, src, order)
    requires r == CopyEntries(fs1, src, dst, rels, faults)
    ensures forall q :: !Under(dst, q) ==> Agree(r.fs, fs, q)
    ensures r.err.None? ==> DirExists(r.fs, dst)
    ensures r.err.None? && ValidOrder(order) ==>
      forall rel :: rel != [] && src + rel in fs ==>
        dst + rel in r.fs && r.fs[dst + rel] == fs[src + rel]
    ensures ValidOrder(order) ==>
      forall q :: q in r.fs && q !in fs ==>
        q == dst || (Under(dst, q) && q[|dst|..] in Entries(fs, src))
  {
    forall q | q in Targets(dst, rels) ensures Under(dst, q) && q[|dst|..] in rels {
      var rel :| rel in rels && q == dst + rel;
      UnderJoin(dst, rel);
    }
    if ValidOrder(order) {
      assert Enumerates(rels, Entries(fs, src));
      assert [] !in Entries(fs, src) by { EntriesMember(fs, src, []); }
      if r.err.None? {
        forall rel | rel != [] && src + rel in fs
          ensures dst + rel in r.fs && r.fs[dst + rel] == fs[src + rel]
        {
          EntriesMember(fs, src, rel);
          var j :| 0 <= j < |rels| && rels[j] == rel;
          UnderJoin(src, rel);
          Comparable(src, dst, src + rel);
        }
      }
    }
  }

  /** Every entry of `dst` other than `dst` itself is new. */
  predicate Fresh(fs: FS, dst: Path) {
    forall q :: q in fs && Under(dst, q) ==> q == dst && fs[q] == Dir
  }

  /** The trees below `ra` in `a` and below `rb` in `b` are equal. */
  ghost predicate SameTree(a: FS, ra: Path, b: FS, rb: Path) {
    forall rel ::
      (ra + rel in a <==> rb + rel in b) && (ra + rel in a ==> a[ra + rel] == b[rb + rel])
  }

  /** A copy into a fresh destination reproduces the source tree there. */
  lemma CopyDirSnapshot(fs: FS, src: Path, dst: Path, order: WalkOrder, faults: Faults)
    requires Apart(src, dst) && DirExists(fs, src) && Fresh(fs, dst) && ValidOrder(order)
    requires CopyDir(fs, src, dst, order, faults).err.None?
    ensures SameTree(CopyDir(fs, src, dst, order, faults).fs, dst, fs, src)
  {
    var r := CopyDir(fs, src, dst, order, faults);
    forall rel
      ensures (dst + rel in r.fs <==> src + rel in fs)
      ensures dst + rel in r.fs ==> r.fs[dst + rel] == fs[src + rel]
    {
      UnderJoin(dst, rel);
      UnderJoin(src, rel);
      if rel == [] {
        assert dst + rel == dst && src + rel == src;
      } else if dst + rel in r.fs {
        assert dst + rel != dst;
        assert dst + rel !in fs;
        EntriesMember(fs, src, rel);
      }
    }
  }

  lemma {:induction false} CopyEntriesSucceeds(fs: FS, src: Path, dst: Path, rels: seq<Path>, faults: Faults)
    requires faults.unreadable == {} && faults.unwritable == {}
    requires Apart(src, dst) && NoDup(rels)
    requires forall j :: 0 <= j < |rels| ==> src + rels[j] in fs && dst + rels[j] !in fs
    ensures CopyEntries(fs, src, dst, rels, faults).err.None?
    decreases |rels|
  {
    if |rels| > 0 {
      var s := CopyOne(fs, src, dst, rels[0], faults);
      assert s.err.None?;
      forall j | 0 <= j < |rels[1..]|
        ensures src + rels[1..][j] in s.fs && dst + rels[1..][j] !in s.fs
      {
        UnderJoin(src, rels[1..][j]);
        UnderJoin(dst, rels[0]);
        UnderJoin(dst, rels[1..][j]);
        Comparable(src, dst, src + rels[1..][j]);
        assert rels[1..][j] == rels[j + 1] != rels[0];
      }
      CopyEntriesSucceeds(s.fs, src, dst, rels[1..], faults);
    }
  }

  /** A copy that passes its checks on `src` and `dst` is the entry copy. */
  lemma CopyDirEnters(fs: FS, src: Path, dst: Path, order: WalkOrder, faults: Faults)
    requires Apart(src, dst) && DirExists(fs, src)
    requires faults.unreadable == {} && faults.unwritable == {} && !FileExists(fs, dst)
    ensures CopyDir(fs, src, dst, order, faults)
         == CopyEntries(fs[dst := Dir], src, dst, Walk(fs, src, order), faults)
  {
  }

  /** Without read or write faults, copying into a fresh destination
      succeeds. */
  lemma CopyDirSucceeds(fs: FS, src: Path, dst: Path, order: WalkOrder, faults: Faults)
    requires faults.unreadable == {} && faults.unwritable == {}
    requires Apart(src, dst) && DirExists(fs, src) && Fresh(fs, dst) && ValidOrder(order)
    ensures CopyDir(fs, src, dst, order, faults).err.None?
  {
    var fs1 := fs[dst := Dir];
    var rels := Walk(fs, src, order);
    CopyDirEnters(fs, src, dst, order, faults);
    assert Enumerates(rels, Entries(fs, src));
    forall j | 0 <= j < |rels| ensures src + rels[j] in fs1 && dst + rels[j] !in fs1 {
      EntriesMember(fs, src, rels[j]);
      UnderJoin(dst, rels[j]);
      UnderJoin(src, rels[j]);
      Comparable(src, dst, src + rels[j]);
    }
    CopyEntriesSucceeds(fs1, src, dst, rels, faults);
  }

  /** A failed copy is the first failing entry applied after every earlier
      entry was copied: CopyDir stops at the first error and returns it. */
  lemma {:induction false} CopyStopsAtFirstFailure(fs: FS, src: Path, dst: Path, rels: seq<Path>, faults: Faults)
    requires CopyEntries(fs, src, dst, rels, faults).err.Some?
    ensures exists k :: (0 <= k < |rels| &&
      var before := CopyEntries(fs, src, dst, rels[..k], faults);
      before.err.None? && CopyOne(before.fs, src, dst, rels[k], faults) == CopyEntries(fs, src, dst, rels, faults))
    decreases |rels|
  {
    var s := CopyOne(fs, src, dst, rels[0], faults);
    if s.err.Some? {
      assert rels[..0] == [];
      assert CopyEntries(fs, src, dst, rels[..0], faults) == Step(fs, None);
    } else {
      CopyStopsAtFirstFailure(s.fs, src, dst, rels[1..], faults);
      var k :| 0 <= k < |rels[1..]| &&
        var before := CopyEntries(s.fs, src, dst, rels[1..][..k], faults);
        before.err.None? && CopyOne(before.fs, src, dst, rels[1..][k], faults) == CopyEntries(s.fs, src, dst, rels[1..], faults);
      assert rels[..k + 1][1..] == rels[1..][..k];
      assert rels[..k + 1][0] == rels[0];
      assert CopyEntries(fs, src, dst, rels[..k + 1], faults)
          == CopyEntries(s.fs, src, dst, rels[1..][..k], faults);
      assert rels[k + 1] == rels[1..][k];
    }
  }

  // ---- RemoveContents ----

  /** Every entry's parent exists and is a directory. */
  ghost predicate WellFormed(fs: FS) {
    forall q :: q in fs && |q| > 0 ==> q[..|q| - 1] in fs && fs[q[..|q| - 1]] == Dir
  }

  lemma {:induction false} AncestorExists(fs: FS, q: Path, k: nat)
    requires WellFormed(fs) && q in fs && k <= |q|
    ensures q[..k] in fs
    ensures k < |q| ==> fs[q[..k]] == Dir
    decreases |q| - k
  {
    if k < |q| {
      var parent := q[..|q| - 1];
      if k < |parent| {
        AncestorExists(fs, parent, k);
      } else {
        assert parent[..k] == parent;
      }
      assert parent[..k] == q[..k];
    } else {
      assert q[..k] == q;
    }
  }

  /** The relative paths of the immediate children of `dir`. */
  function Children(fs: FS, dir: Path): set<Path> {
    set rel | rel in Entries(fs, dir) && |rel| == 1
  }

  /** `os.RemoveAll` of each listed child in turn, stopping at the first
      failure. */
  function RemoveEach(fs: FS, dir: Path, rels: seq<Path>, faults: Faults): (r: Step)
    ensures forall q :: q in r.fs ==> q in fs && r.fs[q] == fs[q]
    ensures forall q :: q in fs && (forall j :: 0 <= j < |rels| ==> !Under(dir + rels[j], q)) ==>
      q in r.fs
    ensures r.err.None? ==>
      forall j, q :: 0 <= j < |rels| && Under(dir + rels[j], q) ==> q !in r.fs
    decreases |rels|
  {
    if |rels| == 0 then Step(fs, None)
    else
      var s := RemoveAll(fs, dir + rels[0], faults);
      if s.err.Some? then s
      else
        var r := RemoveEach(s.fs, dir, rels[1..], faults);
        assert forall j :: 1 <= j < |rels| ==> rels[j] == rels[1..][j - 1];
        r
  }

  /** Removing the listed children succeeds exactly when nothing present
      below any of them refuses removal: an entry an earlier child's removal
      took away was removable. */
  lemma {:induction false} RemoveEachSucceeds(fs: FS, dir: Path, rels: seq<Path>, faults: Faults)
    ensures RemoveEach(fs, dir, rels, faults).err.None? <==>
      forall j, u :: 0 <= j < |rels| && u in fs && Under(dir + rels[j], u) ==> u !in faults.unremovable
    decreases |rels|
  {
    if |rels| > 0 {
      var s := RemoveAll(fs, dir + rels[0], faults);
      if s.err.None? {
        RemoveEachSucceeds(s.fs, dir, rels[1..], faults);
        assert forall j :: 1 <= j < |rels| ==> rels[j] == rels[1..][j - 1];
        forall j, u | 1 <= j < |rels| && u in fs && Under(dir + rels[j], u) && u !in s.fs
          ensures u !in faults.unremovable
        {
          assert Under(dir + rels[0], u);
        }
      }
    }
  }

  /** `RemoveContents(dir)`: opening or listing `dir` can fail (nothing is
      removed then); otherwise every child is removed with its subtree, in
      listing order, stopping at the first failure.  `dir` itself and
      everything outside it are kept. */
  function RemoveContents(fs: FS, dir: Path, order: WalkOrder, faults: Faults): (r: Step)
    ensures dir !in fs ==> r == Step(fs, Some(Fail(dir, NotFound)))
    ensures FileExists(fs, dir) && dir !in faults.unreadable ==>
      r == Step(fs, Some(Fail(dir, NotDirectory)))
    ensures forall q :: q in r.fs ==> q in fs && r.fs[q] == fs[q]
    ensures ValidOrder(order) ==> forall q :: q in fs && !(Under(dir, q) && q != dir) ==> q in r.fs
    ensures ValidOrder(order) && WellFormed(fs) && r.err.None? ==>
      forall q :: q in fs && Under(dir, q) && q != dir ==> q !in r.fs
  {
    if dir !in fs then Step(fs, Some(Fail(dir, NotFound)))
    else if dir in faults.unreadable then Step(fs, Some(Fail(dir, ReadFailure)))
    else if fs[dir].File? then Step(fs, Some(Fail(dir, NotDirectory)))
    else
      var rels := order(Children(fs, dir));
      var r := RemoveEach(fs, dir, rels, faults);
      RemoveContentsFacts(fs, dir, order, rels, r, faults);
      r
  }

  /** RemoveContents succeeds on a readable directory whose strict
      descendants all allow removal; in a well-formed tree those are also
      the only cases in which it succeeds. */
  lemma RemoveContentsSucceeds(fs: FS, dir: Path, order: WalkOrder, faults: Faults)
    requires ValidOrder(order)
    ensures (&& DirExists(fs, dir) && dir !in faults.unreadable
             && forall u :: u in fs && Under(dir, u) && u != dir ==> u !in faults.unremovable) ==>
      RemoveContents(fs, dir, order, faults).err.None?
    ensures WellFormed(fs) && RemoveContents(fs, dir, order, faults).err.None? ==>
      && DirExists(fs, dir) && dir !in faults.unreadable
      && forall u :: u in fs && Under(dir, u) && u != dir ==> u !in faults.unremovable
  {
    if DirExists(fs, dir) && dir !in faults.unreadable {
      var rels := order(Children(fs, dir));
      RemoveContentsEnters(fs, dir, order, faults);
      assert Enumerates(rels, Children(fs, dir));
      RemoveEachSucceeds(fs, dir, rels, faults);
      ChildrenStrict(fs, dir, rels);
      if WellFormed(fs) && RemoveEach(fs, dir, rels, faults).err.None? {
        ChildrenCover(fs, dir, rels, faults);
      }
    }
  }

  lemma RemoveContentsEnters(fs: FS, dir: Path, order: WalkOrder, faults: Faults)
    requires DirExists(fs, dir) && dir !in faults.unreadable
    ensures RemoveContents(fs, dir, order, faults) == RemoveEach(fs, dir, order(Children(fs, dir)), faults)
  {
  }

  /** In a well-formed tree, a removal of every child that meets no
      unremovable entry meets none below the directory. */
  lemma ChildrenCover(fs: FS, dir: Path, rels: seq<Path>, faults: Faults)
    requires WellFormed(fs) && Enumerates(rels, Children(fs, dir))
    requires forall j, u :: 0 <= j < |rels| && u in fs && Under(dir + rels[j], u) ==> u !in faults.unremovable
    ensures forall u :: u in fs && Under(dir, u) && u != dir ==> u !in faults.unremovable
  {
    forall u | u in fs && Under(dir, u) && u != dir ensures u !in faults.unremovable {
      var j := ChildCovering(fs, dir, rels, u);
    }
  }

  /** Everything below a child lies strictly below the directory. */
  lemma ChildrenStrict(fs: FS, dir: Path, rels: seq<Path>)
    requires forall j :: 0 <= j < |rels| ==> rels[j] in Children(fs, dir)
    ensures forall j, u :: 0 <= j < |rels| && Under(dir + rels[j], u) ==> Under(dir, u) && u != dir
  {
    forall j, u | 0 <= j < |rels| && Under(dir + rels[j], u)
      ensures Under(dir, u) && u != dir
    {
      UnderJoin(dir, rels[j]);
      assert |rels[j]| == 1;
      assert u[..|dir|] == u[..|dir + rels[j]|][..|dir|];
    }
  }

  lemma RemoveContentsFacts(fs: FS, dir: Path, order: WalkOrder, rels: seq<Path>, r: Step, faults: Faults)
    requires dir in fs && rels == order(Children(fs, dir)) && r == RemoveEach(fs, dir, rels, faults)
    ensures ValidOrder(order) ==> forall q :: q in fs && !(Under(dir, q) && q != dir) ==> q in r.fs
    ensures ValidOrder(order) && WellFormed(fs) && r.err.None? ==>
      forall q :: q in fs && Under(dir, q) && q != dir ==> q !in r.fs
  {
    if ValidOrder(order) {
      RemoveContentsKeeps(fs, dir, rels);
      if WellFormed(fs) && r.err.None? {
        forall q | q in fs && Under(dir, q) && q != dir ensures q !in r.fs {
          var j := ChildCovering(fs, dir, rels, q);
        }
      }
    }
  }

  /** Nothing outside the strict subtree lies below a child. */
  lemma RemoveContentsKeeps(fs: FS, dir: Path, rels: seq<Path>)
    requires forall j :: 0 <= j < |rels| ==> rels[j] in Children(fs, dir)
    ensures forall q :: q in fs && !(Under(dir, q) && q != dir) ==>
      forall j :: 0 <= j < |rels| ==> !Under(dir + rels[j], q)
  {
    forall q, j | q in fs && !(Under(dir, q) && q != dir) && 0 <= j < |rels|
      ensures !Under(dir + rels[j], q)
    {
      UnderJoin(dir, rels[j]);
      Comparable(dir, dir + rels[j], q);
    }
  }

  /** In a well-formed filesystem every strict descendant lies below one of
      the listed children. */
  lemma ChildCovering(fs: FS, dir: Path, rels: seq<Path>, q: Path) returns (j: nat)
    requires WellFormed(fs) && Enumerates(rels, Children(fs, dir))
    requires q in fs && Under(dir, q) && q != dir
    ensures j < |rels| && Under(dir + rels[j], q)
  {
    var c := q[..|dir| + 1];
    AncestorExists(fs, q, |dir| + 1);
    UnderJoin(dir, c[|dir|..]);
    assert c == dir + c[|dir|..];
    EntriesMember(fs, dir, c[|dir|..]);
    assert c[|dir|..] in Children(fs, dir);
    j :| 0 <= j < |rels| && rels[j] == c[|dir|..];
  }
}

=== FILE: legacy.dfy ===
/** The older copies of the library kept in main.go: `split`, `join`,
    `aesGCMEncrypt` and `aesGCMDecrypt` behave as the bitsplit.go versions
    except that they return the underlying error instead of wrapping it, and
    `openViaInfo` reads the join configuration file. */
module Legacy {
  import opened Common
  import Splitter
  import Cipher

  /** main.go `split`: the read error is returned as is, fewer than two key
      writers is refused, and the shares are those of the library version. */
  function LegacySplit(input: Result<seq<Byte>>, n: nat, stream: Splitter.Stream)
    : (r: Result<seq<Splitter.Share>>)
    ensures input.Err? ==> r == Err(input.error)
    ensures input.Ok? && n < 2 ==> r == Err(Failed(InvalidArgument))
    ensures input.Ok? && n >= 2 ==> r.Ok? && |r.value| == n
    ensures input.Ok? && r.Ok? ==>
      forall i :: 0 <= i < n ==> |r.value[i]| == |input.value|
    ensures input.Ok? && r.Ok? ==>
      forall i, k :: 1 <= i < n && 0 <= k < |input.value| ==>
        r.value[i][k] == Splitter.Draws(stream, k, n - 1)[i - 1]
    ensures input.Ok? && r.Ok? ==>
      forall k :: 0 <= k < |input.value| ==>
        (r.value[0][k] + Splitter.IntSum(Splitter.Draws(stream, k, n - 1))) % 256 == input.value[k]
  {
    StripResult(Splitter.Split(input, n, stream))
  }

  /** main.go `join`: fewer than two keys is refused before reading, the
      first read error is returned as is, and otherwise the output is the
      zero-padded modular sum, as long as the longest key. */
  function LegacyJoin(keys: seq<Result<Splitter.Share>>): (r: Result<seq<Byte>>)
    ensures |keys| < 2 ==> r == Err(Failed(InvalidArgument))
    ensures |keys| >= 2 && Splitter.FirstError(keys).Some? ==>
      r == Err(Splitter.FirstError(keys).value)
    ensures |keys| >= 2 && Splitter.FirstError(keys).None? ==>
      r.Ok? && |r.value| == Splitter.MaxLen(Splitter.Values(keys))
      && forall i :: 0 <= i < |r.value| ==>
           r.value[i] == Splitter.ColumnSum(Splitter.Values(keys), i) % 256
  {
    StripResult(Splitter.Join(keys))
  }

  /** Legacy split followed by legacy join reproduces the input. */
  lemma LegacyRoundTrip(data: seq<Byte>, n: nat, stream: Splitter.Stream)
    requires n >= 2
    ensures LegacySplit(Ok(data), n, stream).Ok?
    ensures LegacyJoin(Splitter.Loaded(LegacySplit(Ok(data), n, stream).value)) == Ok(data)
  {
    Splitter.SplitJoinRoundTrip(data, n, stream);
  }

  /** main.go `aesGCMEncrypt`: the library framing with unwrapped errors. */
  function LegacyEncrypt(input: Result<seq<Byte>>, key: seq<Byte>, nonce: Cipher.Nonce, c: Cipher.Aead)
    : (r: Result<seq<Byte>>)
    ensures input.Err? ==> r == Err(input.error)
    ensures input.Ok? && !Cipher.ValidKeyLength(|key|) ==> r == Err(Failed(InvalidKeySize))
    ensures r.Ok? <==> input.Ok? && Cipher.ValidKeyLength(|key|)
    ensures r.Ok? ==> r.value == nonce + c.seal(key, nonce, input.value)
  {
    StripResult(Cipher.Encrypt(input, key, nonce, c))
  }

  /** main.go `aesGCMDecrypt`: input shorter than the nonce is refused, and a
      failed authentication is reported as the underlying failure. */
  function LegacyDecrypt(input: Result<seq<Byte>>, key: seq<Byte>, c: Cipher.Aead)
    : (r: Result<seq<Byte>>)
    ensures !Cipher.ValidKeyLength(|key|) ==> r == Err(Failed(InvalidKeySize))
    ensures Cipher.ValidKeyLength(|key|) && input.Err? ==> r == Err(input.error)
    ensures Cipher.ValidKeyLength(|key|) && input.Ok? && |input.value| < Cipher.NonceSize ==>
      r == Err(Failed(MalformedInput))
    ensures r.Ok? ==>
      && input.Ok? && |input.value| >= Cipher.NonceSize
      && c.open(key, input.value[..Cipher.NonceSize], input.value[Cipher.NonceSize..]) == Some(r.value)
    ensures (&& Cipher.ValidKeyLength(|key|) && input.Ok? && |input.value| >= Cipher.NonceSize
             && c.open(key, input.value[..Cipher.NonceSize], input.value[Cipher.NonceSize..]).None?) ==>
      r == Err(Failed(AuthenticationFailure))
    ensures (&& Cipher.ValidKeyLength(|key|) && input.Ok? && |input.value| >= Cipher.NonceSize
             && c.open(key, input.value[..Cipher.NonceSize], input.value[Cipher.NonceSize..]).Some?) ==>
      r == Ok(c.open(key, input.value[..Cipher.NonceSize], input.value[Cipher.NonceSize..]).value)
  {
    StripResult(Cipher.Decrypt(input, key, c))
  }

  /** The legacy pair is a round trip as well: decrypting what was encrypted
      under the same valid key gives the plaintext back. */
  lemma LegacyEncryptDecryptRoundTrip(p: seq<Byte>, key: seq<Byte>, nonce: Cipher.Nonce, c: Cipher.Aead)
    requires Cipher.Sound(c)
    requires Cipher.ValidKeyLength(|key|)
    ensures LegacyEncrypt(Ok(p), key, nonce, c).Ok?
    ensures LegacyDecrypt(Ok(LegacyEncrypt(Ok(p), key, nonce, c).value), key, c) == Ok(p)
  {
    Cipher.EncryptDecryptRoundTrip(p, key, nonce, c);
  }

  // ---- the join configuration file of openViaInfo ----

  predicate NoNewline(s: string) {
    forall i :: 0 <= i < |s| ==> s[i] != '\n'
  }

  /** Lines joined back with '\n'; the inverse of SplitLines. */
  function JoinLines(lines: seq<string>): string
    requires |lines| >= 1
  {
    if |lines| == 1 then lines[0] else lines[0] + "\n" + JoinLines(lines[1..])
  }

  /** `strings.Split(s, "\n")`: at least one piece, none holding a newline,
      and joining the pieces with newlines gives `s` back. */
  function SplitLines(s: string): (lines: seq<string>)
    ensures |lines| >= 1
    ensures forall j :: 0 <= j < |lines| ==> NoNewline(lines[j])
    ensures JoinLines(lines) == s
    decreases |s|
  {
    if |s| == 0 then [""]
    else
      var rest := SplitLines(s[1..]);
      if s[0] == '\n' then
        assert s == "" + "\n" + s[1..];
        [""] + rest
      else
        var lines := [[s[0]] + rest[0]] + rest[1..];
        JoinLinesCons(s[0], rest);
        assert s == [s[0]] + s[1..];
        lines
  }

  lemma {:induction false} JoinLinesCons(c: char, lines: seq<string>)
    requires |lines| >= 1
    ensures JoinLines([[c] + lines[0]] + lines[1..]) == [c] + JoinLines(lines)
  {
    var l := [[c] + lines[0]] + lines[1..];
    assert l[1..] == lines[1..];
  }

  /** One step of SplitLines on a line that does not start with a newline. */
  lemma SplitLinesStep(s: string)
    requires |s| > 0 && s[0] != '\n'
    ensures SplitLines(s) == [[s[0]] + SplitLines(s[1..])[0]] + SplitLines(s[1..])[1..]
  {
  }

  lemma {:induction false} SplitLinesOfLine(w: string, t: string)
    requires NoNewline(w)
    ensures SplitLines(w + "\n" + t) == [w] + SplitLines(t)
    decreases |w|
  {
    var s := w + "\n" + t;
    if |w| > 0 {
      assert s[1..] == w[1..] + "\n" + t;
      SplitLinesOfLine(w[1..], t);
      SplitLinesStep(s);
      assert [w[0]] + w[1..] == w;
    } else {
      assert s[1..] == t;
    }
  }

  lemma {:induction false} SplitLinesOfLast(w: string)
    requires NoNewline(w)
    ensures SplitLines(w) == [w]
    decreases |w|
  {
    if |w| > 0 {
      SplitLinesOfLast(w[1..]);
      assert [w[0]] + w[1..] == w;
    }
  }

  /** Splitting text that was built by joining newline-free lines gives back
      exactly those lines. */
  lemma {:induction false} SplitJoinLines(lines: seq<string>)
    requires |lines| >= 1
    requires forall j :: 0 <= j < |lines| ==> NoNewline(lines[j])
    ensures SplitLines(JoinLines(lines)) == lines
    decreases |lines|
  {
    if |lines| > 1 {
      SplitLinesOfLine(lines[0], JoinLines(lines[1..]));
      SplitJoinLines(lines[1..]);
    } else {
      SplitLinesOfLast(lines[0]);
    }
  }

  /** The key names in order, with empty lines skipped. */
  function NonEmpty(names: seq<string>): (r: seq<string>)
    ensures forall j :: 0 <= j < |r| ==> r[j] != ""
    ensures forall x :: x in r <==> x in names && x != ""
    ensures |r| <= |names|
    ensures multiset(r) == multiset(names)["" := 0]
  {
    if |names| == 0 then []
    else
      assert names == [names[0]] + names[1..];
      if names[0] == "" then NonEmpty(names[1..])
      else [names[0]] + NonEmpty(names[1..])
  }

  /** The filter distributes over concatenation, so the kept names keep
      their relative order and duplicates are kept. */
  lemma {:induction false} NonEmptyAppend(a: seq<string>, b: seq<string>)
    ensures NonEmpty(a + b) == NonEmpty(a) + NonEmpty(b)
    decreases |a|
  {
    if |a| > 0 {
      assert (a + b)[1..] == a[1..] + b;
      NonEmptyAppend(a[1..], b);
    } else {
      assert a + b == b;
    }
  }

  /** On a single name the filter keeps it exactly when it is not empty. */
  lemma NonEmptySingle(x: string)
    ensures NonEmpty([x]) == if x == "" then [] else [x]
  {
    assert [x][1..] == [];
  }

  datatype Config = Config(output: string, keys: seq<string>)

  /** The pure part of `openViaInfo`: a read failure of the file is returned
      as is; otherwise the first line names the output file and the
      remaining non-empty lines name the keys in order. */
  function ParseConfig(input: Result<string>): (r: Result<Config>)
    ensures input.Err? ==> r == Err(input.error)
    ensures input.Ok? ==> r.Ok?
    ensures r.Ok? ==>
      && NoNewline(r.value.output)
      && |r.value.output| <= |input.value|
      && input.value[..|r.value.output|] == r.value.output
      && (|r.value.output| == |input.value| || input.value[|r.value.output|] == '\n')
    ensures r.Ok? ==> forall j :: 0 <= j < |r.value.keys| ==>
      r.value.keys[j] != "" && NoNewline(r.value.keys[j])
  {
    match input
    case Err(e) => Err(e)
    case Ok(text) =>
      var lines := SplitLines(text);
      var keys := NonEmpty(lines[1..]);
      assert forall j :: 0 <= j < |keys| ==> NoNewline(keys[j]) by {
        forall j | 0 <= j < |keys| ensures NoNewline(keys[j]) {
          assert keys[j] in lines[1..];
        }
      }
      FirstLinePrefix(lines);
      Ok(Config(lines[0], keys))
  }

  lemma FirstLinePrefix(lines: seq<string>)
    requires |lines| >= 1
    ensures |lines[0]| <= |JoinLines(lines)|
    ensures JoinLines(lines)[..|lines[0]|] == lines[0]
    ensures |lines[0]| == |JoinLines(lines)| || JoinLines(lines)[|lines[0]|] == '\n'
  {
    if |lines| > 1 {
      assert JoinLines(lines) == lines[0] + ("\n" + JoinLines(lines[1..]));
    }
  }

  /** A configuration written as an output line followed by key lines (some
      possibly empty) is read back as that output and the non-empty keys. */
  lemma ParseConfigOfLines(output: string, names: seq<string>)
    requires NoNewline(output)
    requires forall j :: 0 <= j < |names| ==> NoNewline(names[j])
    ensures ParseConfig(Ok(JoinLines([output] + names))) == Ok(Config(output, NonEmpty(names)))
  {
    var lines := [output] + names;
    SplitJoinLines(lines);
    assert lines[1..] == names;
  }
}

=== FILE: lockproofs.dfy ===
/** What the dirlocker transaction guarantees: a rollback restores the
    locked directory exactly, a successful Lock leaves every file encrypted
    and the key and marker in place, and Unlock of a locked directory gives
    back the original tree. */
module LockProofs {
  import opened Common
  import opened FileSystem
  import Cipher
  import opened DirLocker

  // ---- assumptions about the temporary directory ----

  /** Nothing exists at `p` or below it (a new directory of
      `ioutil.TempDir`, a marker not yet written). */
  predicate Absent(fs: FS, p: Path) {
    forall q :: q in fs ==> !Under(p, q)
  }

  /** `ioutil.TempDir` creates its directory inside an existing one. */
  predicate TempParent(fs: FS, tmp: Path) {
    |tmp| > 0 && DirExists(fs, tmp[..|tmp| - 1])
  }

  /** `ioutil.TempDir("", "~temp")` names its directory `~temp<digits>`. */
  predicate TempName(tmp: Path) {
    |tmp| > 0 && |tmp[|tmp| - 1]| > 0 && tmp[|tmp| - 1][0] == '~'
  }

  // ---- tree lemmas ----

  lemma UnderAppend(a: Path, b: Path, x: string)
    ensures Under(a, b + [x]) ==> Under(a, b) || a == b + [x]
  {
    if Under(a, b + [x]) && |a| <= |b| {
      assert (b + [x])[..|a|] == b[..|a|];
    }
  }

  lemma ApartUnder(a: Path, b: Path, q: Path)
    requires Apart(a, b)
    ensures Under(a, q) ==> !Under(b, q)
  {
    Comparable(a, b, q);
  }

  lemma EntriesAgree(a: FS, b: FS, root: Path)
    requires forall q :: Under(root, q) ==> Agree(a, b, q)
    ensures Entries(a, root) == Entries(b, root)
  {
    forall rel ensures rel in Entries(a, root) <==> rel in Entries(b, root) {
      EntriesMember(a, root, rel);
      EntriesMember(b, root, rel);
      UnderJoin(root, rel);
    }
  }

  lemma SameTreeFrame(a: FS, a2: FS, ra: Path, b: FS, rb: Path)
    requires SameTree(a, ra, b, rb)
    requires forall q :: Under(ra, q) ==> Agree(a2, a, q)
    ensures SameTree(a2, ra, b, rb)
  {
    forall rel ensures Agree(a2, a, ra + rel) {
      UnderJoin(ra, rel);
    }
  }

  lemma SameTreeAgree(a: FS, b: FS, r: Path)
    requires forall q :: Under(r, q) ==> Agree(a, b, q)
    ensures SameTree(a, r, b, r)
  {
    forall rel ensures Agree(a, b, r + rel) {
      UnderJoin(r, rel);
    }
  }

  lemma SameTreeTrans(a: FS, ra: Path, b: FS, rb: Path, c: FS, rc: Path)
    requires SameTree(a, ra, b, rb) && SameTree(b, rb, c, rc)
    ensures SameTree(a, ra, c, rc)
  {
    forall rel
      ensures (ra + rel in a <==> rc + rel in c) && (ra + rel in a ==> a[ra + rel] == c[rc + rel])
    {
      assert (ra + rel in a <==> rb + rel in b) && (ra + rel in a ==> a[ra + rel] == b[rb + rel]);
      assert (rb + rel in b <==> rc + rel in c) && (rb + rel in b ==> b[rb + rel] == c[rc + rel]);
    }
  }

  lemma TargetsUnder(root: Path, rels: seq<Path>)
    ensures forall q :: q in Targets(root, rels) ==> Under(root, q)
  {
    forall q | q in Targets(root, rels) ensures Under(root, q) {
      var rel :| rel in rels && q == root + rel;
      UnderJoin(root, rel);
    }
  }

  /** The walk leaves everything outside its root as it was. */
  lemma TransformFrame(fs: FS, root: Path, rels: seq<Path>, i: nat, faults: Faults, f: FileTransform)
    ensures forall q :: !Under(root, q) ==> Agree(TransformAll(fs, root, rels, i, faults, f).fs, fs, q)
  {
    TargetsUnder(root, rels);
  }

  /** The walk depends only on the tree below its root: on two filesystems
      that agree there it fails alike and leaves the same tree. */
  lemma {:induction false} TransformAgree(a: FS, b: FS, root: Path, rels: seq<Path>, i: nat, faults: Faults,
                                          f: FileTransform)
    requires forall q :: Under(root, q) ==> Agree(a, b, q)
    ensures TransformAll(a, root, rels, i, faults, f).err == TransformAll(b, root, rels, i, faults, f).err
    ensures forall q :: Under(root, q) ==>
      Agree(TransformAll(a, root, rels, i, faults, f).fs, TransformAll(b, root, rels, i, faults, f).fs, q)
    decreases |rels|
  {
    if |rels| > 0 {
      var p := root + rels[0];
      UnderJoin(root, rels[0]);
      assert Agree(a, b, p);
      if p in a && p !in faults.unreadable {
        if a[p].Dir? {
          TransformAgree(a, b, root, rels[1..], i + 1, faults, f);
        } else if f(i, a[p].data).Ok? {
          var wa := WriteFile(a, p, f(i, a[p].data).value, faults);
          var wb := WriteFile(b, p, f(i, a[p].data).value, faults);
          if wa.err.None? {
            TransformAgree(wa.fs, wb.fs, root, rels[1..], i + 1, faults, f);
          }
        }
      }
    }
  }

  // ---- the snapshot and the rollback ----

  /** A successful snapshot holds a copy of the directory in the temporary
      directory and changes nothing else. */
  lemma SnapshotFaithful(fs: FS, dir: Path, env: Env)
    requires Apart(env.tmp, dir) && DirExists(fs, dir) && Absent(fs, env.tmp) && ValidOrder(env.order)
    ensures forall q :: !Under(env.tmp, q) ==> Agree(Snapshot(fs, dir, env).fs, fs, q)
    ensures Snapshot(fs, dir, env).err.None? ==> SameTree(Snapshot(fs, dir, env).fs, env.tmp, fs, dir)
  {
    var fs0 := fs[env.tmp := Dir];
    assert Under(env.tmp, env.tmp);
    assert forall q :: !Under(env.tmp, q) ==> Agree(fs0, fs, q);
    var snap := Snapshot(fs, dir, env);
    if snap.err.None? {
      assert Fresh(fs0, env.tmp);
      CopyDirSnapshot(fs0, dir, env.tmp, env.order, env.faults);
      forall q | Under(dir, q) ensures Agree(fs0, fs, q) {
        ApartUnder(dir, env.tmp, q);
      }
      SameTreeAgree(fs0, fs, dir);
      SameTreeTrans(snap.fs, env.tmp, fs0, dir, fs, dir);
    }
  }

  /** Without faults the snapshot succeeds. */
  lemma SnapshotSucceeds(fs: FS, dir: Path, env: Env)
    requires Apart(env.tmp, dir) && DirExists(fs, dir) && Absent(fs, env.tmp) && ValidOrder(env.order)
    requires env.faults.unreadable == {} && env.faults.unwritable == {}
    ensures Snapshot(fs, dir, env).err.None?
  {
    var fs0 := fs[env.tmp := Dir];
    assert Under(env.tmp, env.tmp);
    assert Fresh(fs0, env.tmp);
    CopyDirSucceeds(fs0, dir, env.tmp, env.order, env.faults);
  }

  /** A failed snapshot that is cleaned up leaves the filesystem as it was;
      the clean-up succeeds when nothing below the temporary directory
      refuses removal. */
  lemma SnapshotAbortClean(fs: FS, dir: Path, env: Env)
    requires Apart(env.tmp, dir) && Absent(fs, env.tmp)
    requires Snapshot(fs, dir, env).err.Some?
    ensures SnapshotAbort(Snapshot(fs, dir, env), env).reason.SnapshotFailed? ==>
      SnapshotAbort(Snapshot(fs, dir, env), env).fs == fs
    ensures (forall u :: Under(env.tmp, u) ==> u !in env.faults.unremovable) ==>
      SnapshotAbort(Snapshot(fs, dir, env), env).reason.SnapshotFailed?
  {
    var snap := Snapshot(fs, dir, env);
    var rm := RemoveAll(snap.fs, env.tmp, env.faults);
    if rm.err.None? {
      forall q ensures Agree(rm.fs, fs, q) {
        if !Under(env.tmp, q) {
          assert Agree(snap.fs, fs, q);
        }
      }
    }
  }

  /** `abortIfError` restores the directory from a faithful snapshot, and
      succeeds when nothing fails. */
  lemma AbortRestores(fs: FS, dir: Path, env: Env, cause: Error, orig: FS)
    requires Apart(env.tmp, dir) && ValidOrder(env.order)
    requires DirExists(orig, dir) && SameTree(fs, env.tmp, orig, dir)
    ensures Abort(fs, dir, env, cause).RolledBack? ==>
      SameTree(Abort(fs, dir, env, cause).fs, dir, orig, dir)
    ensures env.faults == NoFaults ==> Abort(fs, dir, env, cause).RolledBack?
  {
    var rm := RemoveAll(fs, dir, env.faults);
    if rm.err.None? {
      forall q | Under(env.tmp, q) ensures Agree(rm.fs, fs, q) {
        ApartUnder(env.tmp, dir, q);
      }
      SameTreeFrame(fs, rm.fs, env.tmp, orig, dir);
      assert env.tmp + [] == env.tmp && dir + [] == dir;
      assert DirExists(rm.fs, env.tmp);
      assert Fresh(rm.fs, dir);
      if env.faults == NoFaults {
        CopyDirSucceeds(rm.fs, env.tmp, dir, env.order, env.faults);
      }
      var cp := CopyDir(rm.fs, env.tmp, dir, env.order, env.faults);
      if cp.err.None? {
        CopyDirSnapshot(rm.fs, env.tmp, dir, env.order, env.faults);
        SameTreeTrans(cp.fs, dir, rm.fs, env.tmp, orig, dir);
        var rt := RemoveAll(cp.fs, env.tmp, env.faults);
        if rt.err.None? {
          forall q | Under(dir, q) ensures Agree(rt.fs, cp.fs, q) {
            ApartUnder(dir, env.tmp, q);
          }
          SameTreeFrame(cp.fs, rt.fs, dir, orig, dir);
        }
      }
    }
  }

  // ---- Lock and Unlock are all-or-nothing ----

  /** A key file name is never the temporary directory: no hex digit is the
      `~` that starts the temporary directory's name. */
  lemma KeyPathOutsideTemp(tmp: Path, keyDir: Path, name: string)
    requires TempName(tmp) && !Under(tmp, keyDir)
    requires forall i :: 0 <= i < |name| ==> IsHexDigit(name[i])
    ensures !Under(tmp, keyDir + [name])
  {
    UnderAppend(tmp, keyDir, name);
    var last := tmp[|tmp| - 1];
    assert |name| == 0 || name[0] != last[0];
    assert name != last;
    if |tmp| == |keyDir| + 1 {
      assert (keyDir + [name])[|keyDir|] == name;
    }
  }

  lemma LockBodyRollback(fs: FS, lockDir: Path, keyDir: Path, env: Env, key: seq<Byte>,
                         nonces: nat -> Cipher.Nonce, c: Crypto, orig: FS)
    requires Apart(env.tmp, lockDir) && ValidOrder(env.order) && TempName(env.tmp)
    requires DirExists(orig, lockDir) && SameTree(fs, env.tmp, orig, lockDir)
    requires !Under(env.tmp, keyDir)
    ensures LockBody(fs, lockDir, keyDir, env, key, nonces, c).RolledBack? ==>
      SameTree(LockBody(fs, lockDir, keyDir, env, key, nonces, c).fs, lockDir, orig, lockDir)
  {
    var rels := Walk(fs, lockDir, env.order);
    var enc := TransformAll(fs, lockDir, rels, 0, env.faults, Sealer(key, nonces, c));
    TransformFrame(fs, lockDir, rels, 0, env.faults, Sealer(key, nonces, c));
    forall q | Under(env.tmp, q) ensures Agree(enc.fs, fs, q) {
      ApartUnder(env.tmp, lockDir, q);
    }
    SameTreeFrame(fs, enc.fs, env.tmp, orig, lockDir);
    if enc.err.Some? {
      AbortRestores(enc.fs, lockDir, env, enc.err.value, orig);
    } else {
      var name := KeyName(c, key, fs, lockDir, rels);
      KeyPathOutsideTemp(env.tmp, keyDir, name);
      var wk := WriteFile(enc.fs, keyDir + [name], key, env.faults);
      SameTreeFrame(enc.fs, wk.fs, env.tmp, orig, lockDir);
      AbortRestores(wk.fs, lockDir, env, Fail(keyDir + [name], HideFailure), orig);
      if wk.err.Some? {
        AbortRestores(wk.fs, lockDir, env, wk.err.value, orig);
      } else if Hide(keyDir + [name], env.faults).None? {
        UnderJoin(lockDir, [LockFileName]);
        ApartUnder(lockDir, env.tmp, MarkerPath(lockDir));
        var wm := WriteFile(wk.fs, MarkerPath(lockDir), ToBytes(name), env.faults);
        SameTreeFrame(wk.fs, wm.fs, env.tmp, orig, lockDir);
        if wm.err.Some? {
          AbortRestores(wm.fs, lockDir, env, wm.err.value, orig);
        }
      }
    }
  }

  /** However LockBody ends, nothing changes outside the directory, the
      snapshot and the key file. */
  lemma LockBodyFrame(fs: FS, lockDir: Path, keyDir: Path, env: Env, key: seq<Byte>,
                      nonces: nat -> Cipher.Nonce, c: Crypto)
    requires Apart(env.tmp, lockDir)
    ensures var o := LockBody(fs, lockDir, keyDir, env, key, nonces, c);
      var keyPath := keyDir + [KeyName(c, key, fs, lockDir, Walk(fs, lockDir, env.order))];
      forall q :: !Under(lockDir, q) && !Under(env.tmp, q) && q != keyPath ==> Agree(o.fs, fs, q)
  {
    TransformFrame(fs, lockDir, Walk(fs, lockDir, env.order), 0, env.faults, Sealer(key, nonces, c));
    UnderJoin(lockDir, [LockFileName]);
  }

  /** The key file's path outside the directory and the snapshot is left
      alone when the walk fails, and otherwise ends either as it was or
      holding the key: a rollback does not remove a key file already
      written. */
  lemma LockBodyKeyFile(fs: FS, lockDir: Path, keyDir: Path, env: Env, key: seq<Byte>,
                        nonces: nat -> Cipher.Nonce, c: Crypto)
    requires Apart(env.tmp, lockDir)
    ensures var rels := Walk(fs, lockDir, env.order);
      var keyPath := keyDir + [KeyName(c, key, fs, lockDir, rels)];
      var o := LockBody(fs, lockDir, keyDir, env, key, nonces, c);
      !Under(lockDir, keyPath) && !Under(env.tmp, keyPath) ==>
        && (TransformAll(fs, lockDir, rels, 0, env.faults, Sealer(key, nonces, c)).err.Some? ==>
              Agree(o.fs, fs, keyPath))
        && (Agree(o.fs, fs, keyPath) || (keyPath in o.fs && o.fs[keyPath] == File(key)))
  {
    var rels := Walk(fs, lockDir, env.order);
    var keyPath := keyDir + [KeyName(c, key, fs, lockDir, rels)];
    if !Under(lockDir, keyPath) && !Under(env.tmp, keyPath) {
      TransformFrame(fs, lockDir, rels, 0, env.faults, Sealer(key, nonces, c));
      var enc := TransformAll(fs, lockDir, rels, 0, env.faults, Sealer(key, nonces, c));
      assert Agree(enc.fs, fs, keyPath);
      if enc.err.Some? {
        assert AgreeOutside(Abort(enc.fs, lockDir, env, enc.err.value).fs, enc.fs, lockDir, env.tmp);
      } else {
        var wk := WriteFile(enc.fs, keyPath, key, env.faults);
        if wk.err.Some? {
          assert AgreeOutside(Abort(wk.fs, lockDir, env, wk.err.value).fs, wk.fs, lockDir, env.tmp);
        } else {
          assert wk.fs[keyPath] == File(key);
          LockBodyKeyKept(wk.fs, lockDir, keyDir, keyPath, env, key, KeyName(c, key, fs, lockDir, rels));
        }
      }
    }
  }

  /** Once the key file is written, every later step of LockBody keeps it. */
  lemma LockBodyKeyKept(wk: FS, lockDir: Path, keyDir: Path, keyPath: Path, env: Env, key: seq<Byte>,
                        name: string)
    requires Apart(env.tmp, lockDir) && keyPath == keyDir + [name]
    requires !Under(lockDir, keyPath) && !Under(env.tmp, keyPath)
    requires keyPath in wk && wk[keyPath] == File(key)
    ensures var o := match Hide(keyPath, env.faults)
        case Some(e) => Abort(wk, lockDir, env, e)
        case None =>
          var wm := WriteFile(wk, MarkerPath(lockDir), ToBytes(name), env.faults);
          if wm.err.Some? then Abort(wm.fs, lockDir, env, wm.err.value)
          else Returned(Success, RemoveAll(wm.fs, env.tmp, env.faults).fs);
      keyPath in o.fs && o.fs[keyPath] == File(key)
  {
    UnderJoin(lockDir, [LockFileName]);
    assert MarkerPath(lockDir) != keyPath;
    match Hide(keyPath, env.faults)
    case Some(e) =>
      assert AgreeOutside(Abort(wk, lockDir, env, e).fs, wk, lockDir, env.tmp);
    case None =>
      var wm := WriteFile(wk, MarkerPath(lockDir), ToBytes(name), env.faults);
      if wm.err.Some? {
        assert AgreeOutside(Abort(wm.fs, lockDir, env, wm.err.value).fs, wm.fs, lockDir, env.tmp);
      }
  }

  /** The key file's path, for Lock as a whole: a walk that fails over the
      original directory leaves it as it was, and however Lock ends it is
      either as it was or holds the key. */
  lemma LockKeyFile(fs: FS, lockDir: Path, keyDir: Path, env: Env, key: seq<Byte>,
                    nonces: nat -> Cipher.Nonce, c: Crypto)
    requires |key| == KeySize && Apart(env.tmp, lockDir)
    ensures var rels := Walk(fs, lockDir, env.order);
      var keyPath := keyDir + [KeyName(c, key, fs, lockDir, rels)];
      var o := Lock(fs, lockDir, keyDir, env, key, nonces, c);
      !Under(lockDir, keyPath) && !Under(env.tmp, keyPath) ==>
        && (TransformAll(fs, lockDir, rels, 0, env.faults, Sealer(key, nonces, c)).err.Some? ==>
              Agree(o.fs, fs, keyPath))
        && (Agree(o.fs, fs, keyPath) || (keyPath in o.fs && o.fs[keyPath] == File(key)))
  {
    var rels := Walk(fs, lockDir, env.order);
    var keyPath := keyDir + [KeyName(c, key, fs, lockDir, rels)];
    if LockProceeds(fs, lockDir, keyDir, env) && !Under(lockDir, keyPath) && !Under(env.tmp, keyPath) {
      LockEnters(fs, lockDir, keyDir, env, key, nonces, c);
      var snap := Snapshot(fs, lockDir, env);
      if snap.err.None? {
        forall q | Under(lockDir, q) ensures Agree(snap.fs, fs, q) {
          ApartUnder(lockDir, env.tmp, q);
        }
        EntriesAgree(snap.fs, fs, lockDir);
        PlaintextsAgree(snap.fs, fs, lockDir, rels);
        TransformAgree(snap.fs, fs, lockDir, rels, 0, env.faults, Sealer(key, nonces, c));
        LockBodyKeyFile(snap.fs, lockDir, keyDir, env, key, nonces, c);
        assert Agree(snap.fs, fs, keyPath);
      }
    } else if !LockProceeds(fs, lockDir, keyDir, env) {
      LockStops(fs, lockDir, keyDir, env, key, nonces, c);
    }
  }

  /** Lock is all-or-nothing: every way it can end, except a failed
      rollback or a snapshot that could not be removed, leaves the directory
      as it was, or (after a rollback) as an identical copy; a rollback
      also removes the snapshot. */
  lemma LockAtomic(fs: FS, lockDir: Path, keyDir: Path, env: Env, key: seq<Byte>,
                   nonces: nat -> Cipher.Nonce, c: Crypto)
    requires |key| == KeySize && Apart(env.tmp, lockDir)
    requires ValidOrder(env.order) && Absent(fs, env.tmp) && TempName(env.tmp)
    ensures var o := Lock(fs, lockDir, keyDir, env, key, nonces, c);
      (o.Exited? || (o.Returned? && o.code != Success)) ==> o.fs == fs
    ensures var o := Lock(fs, lockDir, keyDir, env, key, nonces, c);
      o.Halted? && !o.reason.RollbackFailed? && !o.reason.SnapshotCleanupFailed? ==> o.fs == fs
    ensures var o := Lock(fs, lockDir, keyDir, env, key, nonces, c);
      o.RolledBack? ==>
        SameTree(o.fs, lockDir, fs, lockDir) && forall q :: q in o.fs ==> !Under(env.tmp, q)
    ensures var o := Lock(fs, lockDir, keyDir, env, key, nonces, c);
      var keyPath := keyDir + [KeyName(c, key, fs, lockDir, Walk(fs, lockDir, env.order))];
      forall q :: !Under(lockDir, q) && !Under(env.tmp, q) && q != keyPath ==> Agree(o.fs, fs, q)
    ensures var rels := Walk(fs, lockDir, env.order);
      var keyPath := keyDir + [KeyName(c, key, fs, lockDir, rels)];
      var o := Lock(fs, lockDir, keyDir, env, key, nonces, c);
      !Under(lockDir, keyPath) && !Under(env.tmp, keyPath) ==>
        && (TransformAll(fs, lockDir, rels, 0, env.faults, Sealer(key, nonces, c)).err.Some? ==>
              Agree(o.fs, fs, keyPath))
        && (Agree(o.fs, fs, keyPath) || (keyPath in o.fs && o.fs[keyPath] == File(key)))
  {
    LockRestores(fs, lockDir, keyDir, env, key, nonces, c);
    LockFrame(fs, lockDir, keyDir, env, key, nonces, c);
    LockKeyFile(fs, lockDir, keyDir, env, key, nonces, c);
  }

  /** The restoring half of LockAtomic. */
  lemma LockRestores(fs: FS, lockDir: Path, keyDir: Path, env: Env, key: seq<Byte>,
                    nonces: nat -> Cipher.Nonce, c: Crypto)
    requires |key| == KeySize && Apart(env.tmp, lockDir)
    requires ValidOrder(env.order) && Absent(fs, env.tmp) && TempName(env.tmp)
    ensures var o := Lock(fs, lockDir, keyDir, env, key, nonces, c);
      (o.Exited? || (o.Returned? && o.code != Success)) ==> o.fs == fs
    ensures var o := Lock(fs, lockDir, keyDir, env, key, nonces, c);
      o.Halted? && !o.reason.RollbackFailed? && !o.reason.SnapshotCleanupFailed? ==> o.fs == fs
    ensures var o := Lock(fs, lockDir, keyDir, env, key, nonces, c);
      o.RolledBack? ==>
        SameTree(o.fs, lockDir, fs, lockDir) && forall q :: q in o.fs ==> !Under(env.tmp, q)
  {
    if LockProceeds(fs, lockDir, keyDir, env) {
      LockEnters(fs, lockDir, keyDir, env, key, nonces, c);
      var snap := Snapshot(fs, lockDir, env);
      if snap.err.Some? {
        SnapshotAbortClean(fs, lockDir, env);
      } else {
        LockBodyRestores(fs, snap.fs, lockDir, keyDir, env, key, nonces, c);
      }
    } else {
      LockStops(fs, lockDir, keyDir, env, key, nonces, c);
    }
  }

  /** LockBody after a successful snapshot ends in a rollback to the
      original tree, a failed rollback, or success. */
  lemma LockBodyRestores(fs: FS, s: FS, lockDir: Path, keyDir: Path, env: Env, key: seq<Byte>,
                         nonces: nat -> Cipher.Nonce, c: Crypto)
    requires Apart(env.tmp, lockDir) && ValidOrder(env.order) && Absent(fs, env.tmp) && TempName(env.tmp)
    requires DirExists(fs, lockDir) && DirExists(fs, keyDir)
    requires Snapshot(fs, lockDir, env) == Step(s, None)
    ensures var o := LockBody(s, lockDir, keyDir, env, key, nonces, c);
      o.RolledBack? ==>
        SameTree(o.fs, lockDir, fs, lockDir) && forall q :: q in o.fs ==> !Under(env.tmp, q)
  {
    SnapshotFaithful(fs, lockDir, env);
    LockBodyRollback(s, lockDir, keyDir, env, key, nonces, c, fs);
  }

  /** However Lock ends, nothing changes outside the directory, the
      snapshot and the key file. */
  lemma LockFrame(fs: FS, lockDir: Path, keyDir: Path, env: Env, key: seq<Byte>,
                  nonces: nat -> Cipher.Nonce, c: Crypto)
    requires |key| == KeySize && Apart(env.tmp, lockDir)
    ensures var o := Lock(fs, lockDir, keyDir, env, key, nonces, c);
      var keyPath := keyDir + [KeyName(c, key, fs, lockDir, Walk(fs, lockDir, env.order))];
      forall q :: !Under(lockDir, q) && !Under(env.tmp, q) && q != keyPath ==> Agree(o.fs, fs, q)
  {
    if LockProceeds(fs, lockDir, keyDir, env) {
      LockEnters(fs, lockDir, keyDir, env, key, nonces, c);
      var snap := Snapshot(fs, lockDir, env);
      if snap.err.None? {
        forall q | Under(lockDir, q) ensures Agree(snap.fs, fs, q) {
          ApartUnder(lockDir, env.tmp, q);
        }
        EntriesAgree(snap.fs, fs, lockDir);
        PlaintextsAgree(snap.fs, fs, lockDir, Walk(fs, lockDir, env.order));
        LockBodyFrame(snap.fs, lockDir, keyDir, env, key, nonces, c);
      }
    } else {
      LockStops(fs, lockDir, keyDir, env, key, nonces, c);
    }
  }

  /** Lock gets past its checks and prompts to the snapshot. */
  predicate LockProceeds(fs: FS, lockDir: Path, keyDir: Path, env: Env) {
    && DirExists(fs, lockDir) && DirExists(fs, keyDir) && lockDir != env.sysTmp
    && (FileExists(fs, MarkerPath(lockDir)) ==> env.confirmRelock)
    && (lockDir == env.execDir ==> env.confirmBinary)
    && !env.tmpFails
  }

  lemma LockStops(fs: FS, lockDir: Path, keyDir: Path, env: Env, key: seq<Byte>,
                  nonces: nat -> Cipher.Nonce, c: Crypto)
    requires |key| == KeySize && Apart(env.tmp, lockDir)
    ensures var o := Lock(fs, lockDir, keyDir, env, key, nonces, c);
      !LockProceeds(fs, lockDir, keyDir, env) ==> o.fs == fs && !o.RolledBack?
  {
  }

  lemma LockEnters(fs: FS, lockDir: Path, keyDir: Path, env: Env, key: seq<Byte>,
                   nonces: nat -> Cipher.Nonce, c: Crypto)
    requires |key| == KeySize && Apart(env.tmp, lockDir)
    ensures var o := Lock(fs, lockDir, keyDir, env, key, nonces, c);
      var snap := Snapshot(fs, lockDir, env);
      LockProceeds(fs, lockDir, keyDir, env) ==>
        o == if snap.err.Some? then SnapshotAbort(snap, env)
             else LockBody(snap.fs, lockDir, keyDir, env, key, nonces, c)
  {
  }

  lemma UnlockBodyRollback(fs: FS, dir: Path, keyPath: Path, key: seq<Byte>, env: Env, c: Crypto, orig: FS)
    requires Apart(env.tmp, dir) && ValidOrder(env.order)
    requires DirExists(orig, dir) && SameTree(fs, env.tmp, orig, dir)
    ensures UnlockBody(fs, dir, keyPath, key, env, c).RolledBack? ==>
      SameTree(UnlockBody(fs, dir, keyPath, key, env, c).fs, dir, orig, dir)
  {
    var rm := Remove(fs, MarkerPath(dir), env.faults);
    UnderJoin(dir, [LockFileName]);
    ApartUnder(dir, env.tmp, MarkerPath(dir));
    SameTreeFrame(fs, rm.fs, env.tmp, orig, dir);
    if rm.err.Some? {
      AbortRestores(rm.fs, dir, env, rm.err.value, orig);
    } else {
      var rels := Walk(rm.fs, dir, env.order);
      var dec := TransformAll(rm.fs, dir, rels, 0, env.faults, Opener(key, c));
      TransformFrame(rm.fs, dir, rels, 0, env.faults, Opener(key, c));
      forall q | Under(env.tmp, q) ensures Agree(dec.fs, rm.fs, q) {
        ApartUnder(env.tmp, dir, q);
      }
      SameTreeFrame(rm.fs, dec.fs, env.tmp, orig, dir);
      if dec.err.Some? {
        AbortRestores(dec.fs, dir, env, dec.err.value, orig);
      }
    }
  }

  /** However UnlockBody ends, nothing changes outside the directory and the
      snapshot, except that a successful one removes the key file. */
  lemma UnlockBodyFrame(fs: FS, dir: Path, keyPath: Path, key: seq<Byte>, env: Env, c: Crypto)
    requires Apart(env.tmp, dir)
    ensures var o := UnlockBody(fs, dir, keyPath, key, env, c);
      !o.Returned? ==> AgreeOutside(o.fs, fs, dir, env.tmp)
    ensures var o := UnlockBody(fs, dir, keyPath, key, env, c);
      forall q :: !Under(dir, q) && !Under(env.tmp, q) && q != keyPath ==> Agree(o.fs, fs, q)
  {
    UnderJoin(dir, [LockFileName]);
    var rm := Remove(fs, MarkerPath(dir), env.faults);
    assert AgreeOutside(rm.fs, fs, dir, env.tmp);
    if rm.err.None? {
      var dec := TransformAll(rm.fs, dir, Walk(rm.fs, dir, env.order), 0, env.faults, Opener(key, c));
      TransformFrame(rm.fs, dir, Walk(rm.fs, dir, env.order), 0, env.faults, Opener(key, c));
      assert AgreeOutside(dec.fs, fs, dir, env.tmp);
      if dec.err.None? {
        var rk := Remove(dec.fs, keyPath, env.faults);
        assert forall q :: !Under(dir, q) && !Under(env.tmp, q) && q != keyPath ==> Agree(rk.fs, fs, q);
      }
    }
  }

  /** Unlock is all-or-nothing in the same sense as Lock. */
  lemma UnlockAtomic(fs: FS, dir: Path, keyDir: Path, env: Env, c: Crypto)
    requires Apart(env.tmp, dir)
    requires ValidOrder(env.order) && Absent(fs, env.tmp)
    ensures var o := Unlock(fs, dir, keyDir, env, c);
      o.Returned? && o.code != Success ==> o.fs == fs
    ensures var o := Unlock(fs, dir, keyDir, env, c);
      o.Halted? && !o.reason.RollbackFailed? && !o.reason.SnapshotCleanupFailed? ==> o.fs == fs
    ensures var o := Unlock(fs, dir, keyDir, env, c);
      o.RolledBack? ==>
        SameTree(o.fs, dir, fs, dir) && forall q :: q in o.fs ==> !Under(env.tmp, q)
    ensures var o := Unlock(fs, dir, keyDir, env, c);
      !(o.Returned? && o.code == Success) ==> AgreeOutside(o.fs, fs, dir, env.tmp)
  {
    var o := Unlock(fs, dir, keyDir, env, c);
    if UnlockProceeds(fs, dir, keyDir, env) {
      UnlockReaches(fs, dir, keyDir, env, c);
      var snap := Snapshot(fs, dir, env);
      SnapshotFaithful(fs, dir, env);
      if snap.err.Some? {
        SnapshotAbortClean(fs, dir, env);
      } else {
        var keyPath := keyDir + [FromBytes(ReadFile(fs, MarkerPath(dir), env.faults).value)];
        UnlockBodyRollback(snap.fs, dir, keyPath, ReadFile(fs, keyPath, env.faults).value, env, c, fs);
        UnlockBodyFrame(snap.fs, dir, keyPath, ReadFile(fs, keyPath, env.faults).value, env, c);
      }
    } else {
      UnlockStops(fs, dir, keyDir, env, c);
    }
  }

  /** Unlock gets past its checks and both reads to the snapshot. */
  predicate UnlockProceeds(fs: FS, dir: Path, keyDir: Path, env: Env) {
    && DirExists(fs, dir) && DirExists(fs, keyDir) && dir != env.sysTmp
    && FileExists(fs, MarkerPath(dir)) && !env.tmpFails
    && ReadFile(fs, MarkerPath(dir), env.faults).Ok?
    && ReadFile(fs, keyDir + [FromBytes(ReadFile(fs, MarkerPath(dir), env.faults).value)], env.faults).Ok?
  }

  lemma UnlockStops(fs: FS, dir: Path, keyDir: Path, env: Env, c: Crypto)
    requires Apart(env.tmp, dir)
    ensures var o := Unlock(fs, dir, keyDir, env, c);
      !UnlockProceeds(fs, dir, keyDir, env) ==> o.fs == fs && !o.RolledBack?
  {
  }

  lemma UnlockReaches(fs: FS, dir: Path, keyDir: Path, env: Env, c: Crypto)
    requires Apart(env.tmp, dir) && UnlockProceeds(fs, dir, keyDir, env)
    ensures var keyPath := keyDir + [FromBytes(ReadFile(fs, MarkerPath(dir), env.faults).value)];
      var snap := Snapshot(fs, dir, env);
      Unlock(fs, dir, keyDir, env, c)
        == if snap.err.Some? then SnapshotAbort(snap, env)
           else UnlockBody(snap.fs, dir, keyPath, ReadFile(fs, keyPath, env.faults).value, env, c)
  {
  }

  // ---- what a successful Lock leaves behind ----

  lemma PlaintextsAgree(a: FS, b: FS, root: Path, rels: seq<Path>)
    requires forall q :: Under(root, q) ==> Agree(a, b, q)
    ensures Plaintexts(a, root, rels) == Plaintexts(b, root, rels)
  {
    if |rels| > 0 {
      UnderJoin(root, rels[0]);
      PlaintextsAgree(a, b, root, rels[1..]);
    }
  }

  /** The state a successful Lock of `orig` leaves: the walked entries
      encrypted in place (the file at walk position j with nonce j), the
      marker holding the key file's name, the key file holding the key, and
      nothing else changed outside the snapshot. */
  ghost predicate LockedShape(o: FS, orig: FS, lockDir: Path, keyDir: Path, env: Env, key: seq<Byte>,
                              nonces: nat -> Cipher.Nonce, c: Crypto)
  {
    var rels := Walk(orig, lockDir, env.order);
    var name := KeyName(c, key, orig, lockDir, rels);
    var keyPath := keyDir + [name];
    && DirExists(o, lockDir) && DirExists(o, keyDir)
    && !Under(lockDir, keyPath) && !Under(env.tmp, keyPath) && !DirExists(orig, keyPath)
    && EncryptedEntries(o, orig, lockDir, rels, key, nonces, c)
    && (forall rel :: rel != [LockFileName] ==> (lockDir + rel in o <==> lockDir + rel in orig))
    && MarkerPath(lockDir) in o && o[MarkerPath(lockDir)] == File(ToBytes(name))
    && keyPath in o && o[keyPath] == File(key)
    && (forall q :: !Under(lockDir, q) && !Under(env.tmp, q) && q != keyPath ==> Agree(o, orig, q))
  }

  ghost predicate EncryptedEntries(o: FS, orig: FS, lockDir: Path, rels: seq<Path>, key: seq<Byte>,
                                   nonces: nat -> Cipher.Nonce, c: Crypto)
  {
    forall j :: 0 <= j < |rels| && rels[j] != [LockFileName] ==>
      && lockDir + rels[j] in orig && lockDir + rels[j] in o
      && Transformed(orig[lockDir + rels[j]], o[lockDir + rels[j]], Sealer(key, nonces, c), j)
  }

  /** The writes after the walk: the key file, the marker, and the removal
      of the snapshot. */
  lemma LockWrites(fs: FS, lockDir: Path, keyDir: Path, env: Env, key: seq<Byte>,
                   nonces: nat -> Cipher.Nonce, c: Crypto)
    requires Apart(env.tmp, lockDir) && TempName(env.tmp)
    requires !Under(env.tmp, keyDir) && !Under(lockDir, keyDir)
    requires DirExists(fs, lockDir) && ValidOrder(env.order)
    requires LockBody(fs, lockDir, keyDir, env, key, nonces, c).Returned?
    ensures var rels := Walk(fs, lockDir, env.order);
      var enc := TransformAll(fs, lockDir, rels, 0, env.faults, Sealer(key, nonces, c));
      var name := KeyName(c, key, fs, lockDir, rels);
      var keyPath := keyDir + [name];
      var marker := MarkerPath(lockDir);
      var o := LockBody(fs, lockDir, keyDir, env, key, nonces, c).fs;
      && enc.err.None? && DirExists(enc.fs, lockDir)
      && !Under(lockDir, keyPath) && !Under(env.tmp, keyPath) && !DirExists(enc.fs, keyPath)
      && Under(lockDir, marker) && marker != lockDir && !Under(env.tmp, marker)
      && keyPath in o && o[keyPath] == File(key)
      && marker in o && o[marker] == File(ToBytes(name))
      && (forall q :: !Under(env.tmp, q) && q != keyPath && q != marker ==> Agree(o, enc.fs, q))
  {
    LockBodyReturns(fs, lockDir, keyDir, env, key, nonces, c);
    var rels := Walk(fs, lockDir, env.order);
    var enc := TransformAll(fs, lockDir, rels, 0, env.faults, Sealer(key, nonces, c));
    TransformFrame(fs, lockDir, rels, 0, env.faults, Sealer(key, nonces, c));
    assert Enumerates(rels, Entries(fs, lockDir));
    assert lockDir !in Targets(lockDir, rels) by {
      EntriesMember(fs, lockDir, []);
      forall rel | rel in rels ensures lockDir + rel != lockDir {
        assert rel in Entries(fs, lockDir);
      }
    }
    assert DirExists(enc.fs, lockDir);
    var name := KeyName(c, key, fs, lockDir, rels);
    var keyPath := keyDir + [name];
    KeyPathOutsideTemp(env.tmp, keyDir, name);
    UnderAppend(lockDir, keyDir, name);
    assert keyPath != lockDir;
    var marker := MarkerPath(lockDir);
    UnderJoin(lockDir, [LockFileName]);
    ApartUnder(lockDir, env.tmp, marker);
    var wk := WriteFile(enc.fs, keyPath, key, env.faults);
    var wm := WriteFile(wk.fs, marker, ToBytes(name), env.faults);
    assert marker != keyPath;
  }

  /** The steps a LockBody that returns has taken, all without error. */
  lemma LockBodyReturns(fs: FS, lockDir: Path, keyDir: Path, env: Env, key: seq<Byte>,
                        nonces: nat -> Cipher.Nonce, c: Crypto)
    requires Apart(env.tmp, lockDir)
    requires LockBody(fs, lockDir, keyDir, env, key, nonces, c).Returned?
    ensures var rels := Walk(fs, lockDir, env.order);
      var enc := TransformAll(fs, lockDir, rels, 0, env.faults, Sealer(key, nonces, c));
      var name := KeyName(c, key, fs, lockDir, rels);
      var wk := WriteFile(enc.fs, keyDir + [name], key, env.faults);
      var wm := WriteFile(wk.fs, MarkerPath(lockDir), ToBytes(name), env.faults);
      && enc.err.None? && wk.err.None? && wm.err.None?
      && LockBody(fs, lockDir, keyDir, env, key, nonces, c).fs == RemoveAll(wm.fs, env.tmp, env.faults).fs
  {
  }

  lemma LockBodySuccess(fs: FS, lockDir: Path, keyDir: Path, env: Env, key: seq<Byte>,
                        nonces: nat -> Cipher.Nonce, c: Crypto, orig: FS)
    requires Apart(env.tmp, lockDir) && ValidOrder(env.order) && TempName(env.tmp)
    requires !Under(env.tmp, keyDir) && !Under(lockDir, keyDir)
    requires DirExists(fs, lockDir) && DirExists(fs, keyDir)
    requires forall q :: !Under(env.tmp, q) ==> Agree(fs, orig, q)
    requires LockBody(fs, lockDir, keyDir, env, key, nonces, c).Returned?
    ensures LockedShape(LockBody(fs, lockDir, keyDir, env, key, nonces, c).fs,
                        orig, lockDir, keyDir, env, key, nonces, c)
  {
    forall q | Under(lockDir, q) ensures Agree(fs, orig, q) {
      ApartUnder(lockDir, env.tmp, q);
    }
    EntriesAgree(fs, orig, lockDir);
    var rels := Walk(fs, lockDir, env.order);
    assert rels == Walk(orig, lockDir, env.order);
    PlaintextsAgree(fs, orig, lockDir, rels);
    LockWrites(fs, lockDir, keyDir, env, key, nonces, c);
    var enc := TransformAll(fs, lockDir, rels, 0, env.faults, Sealer(key, nonces, c));
    TransformFrame(fs, lockDir, rels, 0, env.faults, Sealer(key, nonces, c));
    var o := LockBody(fs, lockDir, keyDir, env, key, nonces, c).fs;
    var keyPath := keyDir + [KeyName(c, key, fs, lockDir, rels)];
    LockedEntries(fs, o, enc, lockDir, keyPath, env, rels, key, nonces, c, orig);
    assert Under(lockDir, lockDir) && Under(keyDir, keyDir);
    ApartUnder(lockDir, env.tmp, lockDir);
    UnderAppend(lockDir, keyDir, KeyName(c, key, fs, lockDir, rels));
  }

  lemma LockedEntries(fs: FS, o: FS, enc: Step, lockDir: Path, keyPath: Path, env: Env, rels: seq<Path>,
                      key: seq<Byte>, nonces: nat -> Cipher.Nonce, c: Crypto, orig: FS)
    requires Apart(env.tmp, lockDir) && !Under(lockDir, keyPath)
    requires ValidOrder(env.order) && rels == Walk(fs, lockDir, env.order)
    requires enc == TransformAll(fs, lockDir, rels, 0, env.faults, Sealer(key, nonces, c)) && enc.err.None?
    requires forall q :: Under(lockDir, q) ==> Agree(fs, orig, q)
    requires forall q :: !Under(env.tmp, q) && q != keyPath && q != MarkerPath(lockDir) ==> Agree(o, enc.fs, q)
    ensures EncryptedEntries(o, orig, lockDir, rels, key, nonces, c)
    ensures forall rel :: rel != [LockFileName] ==> (lockDir + rel in o <==> lockDir + rel in orig)
  {
    assert Enumerates(rels, Entries(fs, lockDir));
    forall j | 0 <= j < |rels| && rels[j] != [LockFileName]
      ensures lockDir + rels[j] in orig && lockDir + rels[j] in o
      ensures Transformed(orig[lockDir + rels[j]], o[lockDir + rels[j]], Sealer(key, nonces, c), j)
    {
      var p := lockDir + rels[j];
      UnderJoin(lockDir, rels[j]);
      ApartUnder(lockDir, env.tmp, p);
      assert p != MarkerPath(lockDir);
    }
    forall rel | rel != [LockFileName] ensures lockDir + rel in o <==> lockDir + rel in orig {
      UnderJoin(lockDir, rel);
      ApartUnder(lockDir, env.tmp, lockDir + rel);
      assert lockDir + rel != MarkerPath(lockDir);
    }
  }

  /** A successful Lock leaves the locked shape: every walked file is the
      encryption of its original with the nonce of its walk position, the
      marker names the key file, the key file holds the key, and nothing
      else outside the snapshot changed. */
  lemma LockSuccess(fs: FS, lockDir: Path, keyDir: Path, env: Env, key: seq<Byte>,
                    nonces: nat -> Cipher.Nonce, c: Crypto)
    requires |key| == KeySize && Apart(env.tmp, lockDir) && !Under(lockDir, keyDir)
    requires ValidOrder(env.order) && Absent(fs, env.tmp) && TempName(env.tmp)
    ensures var o := Lock(fs, lockDir, keyDir, env, key, nonces, c);
      o.Returned? && o.code == Success ==> LockedShape(o.fs, fs, lockDir, keyDir, env, key, nonces, c)
  {
    var o := Lock(fs, lockDir, keyDir, env, key, nonces, c);
    if o.Returned? && o.code == Success {
      var snap := Snapshot(fs, lockDir, env);
      SnapshotFaithful(fs, lockDir, env);
      assert Under(lockDir, lockDir);
      ApartUnder(lockDir, env.tmp, lockDir);
      LockBodySuccess(snap.fs, lockDir, keyDir, env, key, nonces, c, fs);
    }
  }

  /** Without read or write faults, every walked file of `fs` seals: the
      key has a valid length. */
  lemma SealAllSucceeds(fs: FS, lockDir: Path, env: Env, key: seq<Byte>,
                        nonces: nat -> Cipher.Nonce, c: Crypto)
    requires |key| == KeySize && ValidOrder(env.order)
    requires env.faults.unreadable == {} && env.faults.unwritable == {}
    ensures TransformAll(fs, lockDir, Walk(fs, lockDir, env.order), 0, env.faults, Sealer(key, nonces, c)).err.None?
  {
    var rels := Walk(fs, lockDir, env.order);
    assert Enumerates(rels, Entries(fs, lockDir));
    forall j | 0 <= j < |rels|
      ensures lockDir + rels[j] in fs
      ensures fs[lockDir + rels[j]].File? ==>
        Sealer(key, nonces, c)(0 + j, fs[lockDir + rels[j]].data).Ok?
    {
      EntriesMember(fs, lockDir, rels[j]);
      if fs[lockDir + rels[j]].File? {
        var d := fs[lockDir + rels[j]].data;
        assert Sealer(key, nonces, c)(0 + j, d) == Cipher.Encrypt(Ok(d), key, nonces(0 + j), c.aead);
      }
    }
    TransformSucceeds(fs, lockDir, rels, 0, env.faults, Sealer(key, nonces, c));
  }

  /** Without faults, LockBody on a snapshot taken state returns when
      neither the key file nor the marker is blocked by a directory. */
  lemma LockBodySucceeds(fs: FS, lockDir: Path, keyDir: Path, env: Env, key: seq<Byte>,
                         nonces: nat -> Cipher.Nonce, c: Crypto)
    requires |key| == KeySize && Apart(env.tmp, lockDir)
    requires env.faults == NoFaults && ValidOrder(env.order)
    requires !DirExists(fs, keyDir + [KeyName(c, key, fs, lockDir, Walk(fs, lockDir, env.order))])
    requires !DirExists(fs, MarkerPath(lockDir))
    ensures LockBody(fs, lockDir, keyDir, env, key, nonces, c).Returned?
  {
    var rels := Walk(fs, lockDir, env.order);
    SealAllSucceeds(fs, lockDir, env, key, nonces, c);
    var keyPath := keyDir + [KeyName(c, key, fs, lockDir, rels)];
    TransformKeepsDirs(fs, lockDir, rels, 0, env.faults, Sealer(key, nonces, c), keyPath);
    TransformKeepsDirs(fs, lockDir, rels, 0, env.faults, Sealer(key, nonces, c), MarkerPath(lockDir));
  }

  /** Lock succeeds when nothing fails: the directories exist, the prompts
      are confirmed, the temporary directory is fresh, and no directory
      stands where the key file or the marker is to be written. */
  lemma LockSucceeds(fs: FS, lockDir: Path, keyDir: Path, env: Env, key: seq<Byte>,
                     nonces: nat -> Cipher.Nonce, c: Crypto)
    requires |key| == KeySize && Apart(env.tmp, lockDir)
    requires env.faults == NoFaults && !env.tmpFails && ValidOrder(env.order)
    requires DirExists(fs, lockDir) && DirExists(fs, keyDir) && lockDir != env.sysTmp
    requires FileExists(fs, MarkerPath(lockDir)) ==> env.confirmRelock
    requires lockDir == env.execDir ==> env.confirmBinary
    requires Absent(fs, env.tmp) && TempName(env.tmp)
    requires !DirExists(fs, keyDir + [KeyName(c, key, fs, lockDir, Walk(fs, lockDir, env.order))])
    requires !DirExists(fs, MarkerPath(lockDir))
    ensures var o := Lock(fs, lockDir, keyDir, env, key, nonces, c);
      o.Returned? && o.code == Success
  {
    LockEnters(fs, lockDir, keyDir, env, key, nonces, c);
    SnapshotSucceeds(fs, lockDir, env);
    var snap := Snapshot(fs, lockDir, env);
    forall q | Under(lockDir, q) ensures Agree(snap.fs, fs, q) {
      ApartUnder(lockDir, env.tmp, q);
    }
    EntriesAgree(snap.fs, fs, lockDir);
    var rels := Walk(fs, lockDir, env.order);
    PlaintextsAgree(snap.fs, fs, lockDir, rels);
    var name := KeyName(c, key, fs, lockDir, rels);
    assert !Under(env.tmp, keyDir);
    KeyPathOutsideTemp(env.tmp, keyDir, name);
    assert Agree(snap.fs, fs, keyDir + [name]);
    UnderJoin(lockDir, [LockFileName]);
    assert Agree(snap.fs, fs, MarkerPath(lockDir));
    LockBodySucceeds(snap.fs, lockDir, keyDir, env, key, nonces, c);
  }

  // ---- the locked state, independently of walk order and nonces ----

  /** `after` is `before` sealed under `key`: directories stay directories
      and a file decrypts back to its original contents. */
  ghost predicate SealedNode(before: Node, after: Node, key: seq<Byte>, c: Crypto) {
    && (before.Dir? ==> after == Dir)
    && (before.File? ==> after.File? && Cipher.Decrypt(Ok(after.data), key, c.aead) == Ok(before.data))
  }

  /** `locked` holds the tree of `orig` below `dir` with every file sealed,
      apart from the marker entry. */
  ghost predicate Sealed(locked: FS, orig: FS, dir: Path, key: seq<Byte>, c: Crypto) {
    && DirExists(orig, dir) && DirExists(locked, dir)
    && (forall rel :: rel != [LockFileName] ==> (dir + rel in locked <==> dir + rel in orig))
    && (forall rel :: dir + rel in orig && rel != [LockFileName] ==>
          dir + rel in locked && SealedNode(orig[dir + rel], locked[dir + rel], key, c))
  }

  /** With a sound cipher, a successful Lock seals the directory. */
  lemma LockSeals(fs: FS, lockDir: Path, keyDir: Path, env: Env, key: seq<Byte>,
                  nonces: nat -> Cipher.Nonce, c: Crypto)
    requires Cipher.Sound(c.aead)
    requires |key| == KeySize && Apart(env.tmp, lockDir) && !Under(lockDir, keyDir)
    requires ValidOrder(env.order) && Absent(fs, env.tmp) && TempName(env.tmp)
    ensures var o := Lock(fs, lockDir, keyDir, env, key, nonces, c);
      o.Returned? && o.code == Success ==> Sealed(o.fs, fs, lockDir, key, c)
  {
    var out := Lock(fs, lockDir, keyDir, env, key, nonces, c);
    if out.Returned? && out.code == Success {
      LockSealsSuccess(fs, lockDir, keyDir, env, key, nonces, c);
    }
  }

  lemma LockSealsSuccess(fs: FS, lockDir: Path, keyDir: Path, env: Env, key: seq<Byte>,
                         nonces: nat -> Cipher.Nonce, c: Crypto)
    requires Cipher.Sound(c.aead)
    requires |key| == KeySize && Apart(env.tmp, lockDir) && !Under(lockDir, keyDir)
    requires ValidOrder(env.order) && Absent(fs, env.tmp) && TempName(env.tmp)
    requires Lock(fs, lockDir, keyDir, env, key, nonces, c).Returned?
    requires Lock(fs, lockDir, keyDir, env, key, nonces, c).code == Success
    ensures Sealed(Lock(fs, lockDir, keyDir, env, key, nonces, c).fs, fs, lockDir, key, c)
  {
    var o := Lock(fs, lockDir, keyDir, env, key, nonces, c).fs;
    LockSuccess(fs, lockDir, keyDir, env, key, nonces, c);
    var rels := Walk(fs, lockDir, env.order);
    assert Enumerates(rels, Entries(fs, lockDir));
    assert EncryptedEntries(o, fs, lockDir, rels, key, nonces, c);
    forall rel | lockDir + rel in fs && rel != [LockFileName]
      ensures lockDir + rel in o && SealedNode(fs[lockDir + rel], o[lockDir + rel], key, c)
    {
      EntriesMember(fs, lockDir, rel);
      if rel == [] {
        assert lockDir + rel == lockDir;
      } else {
        var j :| 0 <= j < |rels| && rels[j] == rel;
        var before := fs[lockDir + rel];
        if before.File? {
          Cipher.EncryptDecryptRoundTrip(before.data, key, nonces(j), c.aead);
        }
      }
    }
  }

  // ---- helpers for Unlock ----

  /** Hex names survive the conversion to marker bytes and back. */
  lemma HexBytesRoundTrip(name: string)
    requires forall i :: 0 <= i < |name| ==> IsHexDigit(name[i])
    ensures FromBytes(ToBytes(name)) == name
  {
    forall i | 0 <= i < |name| ensures FromBytes(ToBytes(name))[i] == name[i] {
      assert (name[i] as int) < 256;
    }
  }

  /** Without read or write faults, a walk whose every file transforms
      successfully succeeds. */
  lemma {:induction false} TransformSucceeds(fs: FS, root: Path, rels: seq<Path>, i: nat, faults: Faults,
                                             f: FileTransform)
    requires faults.unreadable == {} && faults.unwritable == {} && NoDup(rels)
    requires forall j :: 0 <= j < |rels| ==>
      root + rels[j] in fs && (fs[root + rels[j]].File? ==> f(i + j, fs[root + rels[j]].data).Ok?)
    ensures TransformAll(fs, root, rels, i, faults, f).err.None?
    decreases |rels|
  {
    if |rels| > 0 {
      var p := root + rels[0];
      var next := if fs[p].Dir? then fs else WriteFile(fs, p, f(i, fs[p].data).value, faults).fs;
      forall j | 0 <= j < |rels[1..]|
        ensures root + rels[1..][j] in next
        ensures next[root + rels[1..][j]].File? ==>
          f(i + 1 + j, next[root + rels[1..][j]].data).Ok?
      {
        UnderJoin(root, rels[0]);
        UnderJoin(root, rels[1..][j]);
        assert rels[1..][j] == rels[j + 1] != rels[0];
      }
      TransformSucceeds(next, root, rels[1..], i + 1, faults, f);
    }
  }

  /** A strict descendant's parent is a descendant too. */
  lemma UnderParent(a: Path, t: Path)
    ensures Under(a, t) && a != t ==> |t| > 0 && Under(a, t[..|t| - 1])
  {
    if Under(a, t) && a != t {
      assert |a| < |t|;
      assert t[..|t| - 1][..|a|] == t[..|a|];
    }
  }

  lemma UnderTrans(a: Path, b: Path, c: Path)
    ensures Under(a, b) && Under(b, c) ==> Under(a, c)
  {
    if Under(a, b) && Under(b, c) {
      assert c[..|b|][..|a|] == c[..|a|];
    }
  }

  // ---- Unlock of a sealed directory ----

  /** Unlock reads the marker and the key file and takes the snapshot. */
  lemma UnlockEnters(fs: FS, dir: Path, keyDir: Path, name: string, key: seq<Byte>, env: Env, c: Crypto)
    requires Apart(env.tmp, dir) && ValidOrder(env.order) && Absent(fs, env.tmp)
    requires env.faults == NoFaults && !env.tmpFails && dir != env.sysTmp
    requires DirExists(fs, dir) && DirExists(fs, keyDir)
    requires MarkerPath(dir) in fs && fs[MarkerPath(dir)] == File(ToBytes(name))
    requires forall i :: 0 <= i < |name| ==> IsHexDigit(name[i])
    requires keyDir + [name] in fs && fs[keyDir + [name]] == File(key)
    ensures Snapshot(fs, dir, env).err.None?
    ensures Unlock(fs, dir, keyDir, env, c)
         == UnlockBody(Snapshot(fs, dir, env).fs, dir, keyDir + [name], key, env, c)
  {
    SnapshotSucceeds(fs, dir, env);
    HexBytesRoundTrip(name);
  }

  /** The marker can be removed, and what is left below the directory is
      the sealed tree without it. */
  lemma MarkerRemoval(s: FS, fs: FS, orig: FS, dir: Path, key: seq<Byte>, c: Crypto, env: Env)
    requires Sealed(fs, orig, dir, key, c) && Absent(orig, MarkerPath(dir))
    requires MarkerPath(dir) in fs && Apart(env.tmp, dir)
    requires forall q :: !Under(env.tmp, q) ==> Agree(s, fs, q)
    ensures Remove(s, MarkerPath(dir), NoFaults).err.None?
    ensures var r := Remove(s, MarkerPath(dir), NoFaults).fs;
      forall rel :: ((dir + rel in r <==> dir + rel in orig)
        && (dir + rel in r ==> dir + rel in fs && r[dir + rel] == fs[dir + rel]))
  {
    var m := MarkerPath(dir);
    UnderJoin(dir, [LockFileName]);
    ApartUnder(dir, env.tmp, m);
    forall q | q in s && Under(m, q) ensures q == m {
      UnderTrans(dir, m, q);
      ApartUnder(dir, env.tmp, q);
      assert q == dir + q[|dir|..];
    }
    var r := Remove(s, m, NoFaults).fs;
    forall rel
      ensures (dir + rel in r <==> dir + rel in orig)
      ensures dir + rel in r ==> dir + rel in fs && r[dir + rel] == fs[dir + rel]
    {
      UnderJoin(dir, rel);
      ApartUnder(dir, env.tmp, dir + rel);
      assert Under(m, m);
    }
  }

  /** The decrypting walk over the sealed tree succeeds and restores the
      original tree, touching nothing outside the directory. */
  lemma DecryptWalk(r: FS, fs: FS, orig: FS, dir: Path, key: seq<Byte>, c: Crypto, order: WalkOrder)
    requires Sealed(fs, orig, dir, key, c) && ValidOrder(order) && MarkerPath(dir) !in orig
    requires forall rel :: ((dir + rel in r <==> dir + rel in orig)
      && (dir + rel in r ==> dir + rel in fs && r[dir + rel] == fs[dir + rel]))
    ensures var dec := TransformAll(r, dir, Walk(r, dir, order), 0, NoFaults, Opener(key, c));
      && dec.err.None? && SameTree(dec.fs, dir, orig, dir)
      && forall q :: !Under(dir, q) ==> Agree(dec.fs, r, q)
  {
    var rels := Walk(r, dir, order);
    assert Enumerates(rels, Entries(r, dir));
    var f := Opener(key, c);
    forall j | 0 <= j < |rels|
      ensures dir + rels[j] in r && (r[dir + rels[j]].File? ==> f(j, r[dir + rels[j]].data).Ok?)
      ensures dir + rels[j] in orig && rels[j] != [LockFileName]
    {
      EntriesMember(r, dir, rels[j]);
      var p := dir + rels[j];
      assert p in orig && p != MarkerPath(dir);
      assert SealedNode(orig[p], fs[p], key, c);
    }
    TransformSucceeds(r, dir, rels, 0, NoFaults, f);
    var dec := TransformAll(r, dir, rels, 0, NoFaults, f);
    TransformFrame(r, dir, rels, 0, NoFaults, f);
    forall rel
      ensures (dir + rel in dec.fs <==> dir + rel in orig)
      ensures dir + rel in dec.fs ==> dec.fs[dir + rel] == orig[dir + rel]
    {
      EntriesMember(r, dir, rel);
      if rel == [] {
        assert dir + rel == dir;
        assert dir !in Targets(dir, rels) by {
          forall x | x in rels ensures dir + x != dir {
            assert x in Entries(r, dir);
            EntriesMember(r, dir, x);
          }
        }
      } else if dir + rel in r {
        var j :| 0 <= j < |rels| && rels[j] == rel;
        assert Transformed(r[dir + rel], dec.fs[dir + rel], f, j);
      }
    }
  }

  /** The key file can be removed, and removing it and the snapshot leaves
      the directory as the walk left it. */
  lemma KeyAndTempRemoval(dec: FS, fs: FS, dir: Path, keyPath: Path, env: Env)
    requires DirExists(fs, dir) && Apart(env.tmp, dir)
    requires keyPath in fs && fs[keyPath].File? && !HasChildren(fs, keyPath) && !Under(dir, keyPath)
    requires Absent(fs, env.tmp) && TempParent(fs, env.tmp)
    requires dec.Keys <= fs.Keys + (set q | q in dec && (Under(dir, q) || Under(env.tmp, q)))
    requires forall q :: !Under(dir, q) && !Under(env.tmp, q) ==> Agree(dec, fs, q)
    ensures Remove(dec, keyPath, NoFaults).err.None?
    ensures var o := Prune(Remove(dec, keyPath, NoFaults).fs, env.tmp);
      keyPath !in o && Absent(o, env.tmp) && forall q :: Under(dir, q) ==> Agree(o, dec, q)
  {
    assert Under(keyPath, keyPath);
    assert !Under(env.tmp, keyPath);
    forall q | q in dec && Under(keyPath, q) ensures q == keyPath {
      Comparable(dir, keyPath, q);
      Comparable(env.tmp, keyPath, q);
      UnderParent(keyPath, dir);
      UnderParent(keyPath, env.tmp);
      assert Under(dir, dir) && Under(env.tmp, env.tmp);
    }
    var rk := Remove(dec, keyPath, NoFaults);
    forall q | Under(dir, q) ensures Agree(Prune(rk.fs, env.tmp), dec, q) {
      ApartUnder(dir, env.tmp, q);
      UnderTrans(dir, q, keyPath);
    }
  }

  /** Unlock of a sealed directory whose marker names a readable key file
      succeeds, restores the original tree, removes the key file and the
      snapshot. */
  lemma UnlockOpens(fs: FS, orig: FS, dir: Path, keyDir: Path, name: string, key: seq<Byte>,
                    env: Env, c: Crypto)
    requires Sealed(fs, orig, dir, key, c) && Absent(orig, MarkerPath(dir))
    requires MarkerPath(dir) in fs && fs[MarkerPath(dir)] == File(ToBytes(name))
    requires forall i :: 0 <= i < |name| ==> IsHexDigit(name[i])
    requires DirExists(fs, keyDir) && keyDir + [name] in fs && fs[keyDir + [name]] == File(key)
    requires !HasChildren(fs, keyDir + [name]) && !Under(dir, keyDir + [name])
    requires env.faults == NoFaults && !env.tmpFails && ValidOrder(env.order) && dir != env.sysTmp
    requires Apart(env.tmp, dir) && Absent(fs, env.tmp) && TempParent(fs, env.tmp)
    ensures var o := Unlock(fs, dir, keyDir, env, c);
      && o.Returned? && o.code == Success
      && SameTree(o.fs, dir, orig, dir) && keyDir + [name] !in o.fs && Absent(o.fs, env.tmp)
    ensures var o := Unlock(fs, dir, keyDir, env, c);
      forall q :: !Under(dir, q) && !Under(env.tmp, q) && q != keyDir + [name] ==> Agree(o.fs, fs, q)
  {
    UnlockEnters(fs, dir, keyDir, name, key, env, c);
    SnapshotFaithful(fs, dir, env);
    UnlockBodyOpens(Snapshot(fs, dir, env).fs, fs, orig, dir, keyDir + [name], key, env, c);
    UnlockBodyFrame(Snapshot(fs, dir, env).fs, dir, keyDir + [name], key, env, c);
  }

  lemma UnlockBodyOpens(s: FS, fs: FS, orig: FS, dir: Path, keyPath: Path, key: seq<Byte>, env: Env, c: Crypto)
    requires Sealed(fs, orig, dir, key, c) && Absent(orig, MarkerPath(dir)) && MarkerPath(dir) in fs
    requires keyPath in fs && fs[keyPath].File? && !HasChildren(fs, keyPath) && !Under(dir, keyPath)
    requires env.faults == NoFaults && ValidOrder(env.order)
    requires Apart(env.tmp, dir) && Absent(fs, env.tmp) && TempParent(fs, env.tmp)
    requires forall q :: !Under(env.tmp, q) ==> Agree(s, fs, q)
    ensures var o := UnlockBody(s, dir, keyPath, key, env, c);
      && o.Returned? && o.code == Success
      && SameTree(o.fs, dir, orig, dir) && keyPath !in o.fs && Absent(o.fs, env.tmp)
  {
    var m := MarkerPath(dir);
    MarkerRemoval(s, fs, orig, dir, key, c, env);
    var r := Remove(s, m, NoFaults).fs;
    assert Under(m, m);
    DecryptWalk(r, fs, orig, dir, key, c, env.order);
    var dec := TransformAll(r, dir, Walk(r, dir, env.order), 0, NoFaults, Opener(key, c));
    UnderJoin(dir, [LockFileName]);
    forall q | q in dec.fs ensures q in fs || Under(dir, q) || Under(env.tmp, q) {
      assert Agree(dec.fs, r, q) || Under(dir, q);
    }
    forall q | !Under(dir, q) && !Under(env.tmp, q) ensures Agree(dec.fs, fs, q) {
      assert q != m;
    }
    KeyAndTempRemoval(dec.fs, fs, dir, keyPath, env);
    var o := UnlockBody(s, dir, keyPath, key, env, c);
    assert o.fs == Prune(Remove(dec.fs, keyPath, NoFaults).fs, env.tmp);
    SameTreeFrame(dec.fs, o.fs, dir, orig, dir);
  }

  /** An entry strictly below `a` in a well-formed filesystem makes `a` a
      directory. */
  lemma AncestorDir(fs: FS, a: Path, q: Path)
    ensures WellFormed(fs) && q in fs && Under(a, q) && a != q ==> a in fs && fs[a] == Dir
  {
    if WellFormed(fs) && q in fs && Under(a, q) && a != q {
      AncestorExists(fs, q, |a|);
    }
  }

  /** After a successful Lock of a well-formed filesystem nothing lies below
      the key file: the key file was written where no directory was. */
  lemma KeyFileChildless(fs: FS, fs1: FS, lockDir: Path, keyPath: Path, tmp: Path)
    requires WellFormed(fs) && DirExists(fs, lockDir) && Absent(fs, tmp) && TempParent(fs, tmp)
    requires !Under(lockDir, keyPath) && !Under(tmp, keyPath) && !DirExists(fs, keyPath)
    requires forall q :: !Under(lockDir, q) && !Under(tmp, q) && q != keyPath ==> Agree(fs1, fs, q)
    ensures !HasChildren(fs1, keyPath)
  {
    var parent := tmp[..|tmp| - 1];
    forall q | q in fs1 && Under(keyPath, q) ensures q == keyPath {
      Comparable(lockDir, keyPath, q);
      Comparable(tmp, keyPath, q);
      UnderParent(keyPath, tmp);
      AncestorDir(fs, keyPath, lockDir);
      AncestorDir(fs, keyPath, parent);
      AncestorDir(fs, keyPath, q);
    }
  }

  /** Locking and then unlocking gives the directory back: with a sound
      cipher, a well-formed filesystem, a key store outside the directory and
      no earlier marker, a successful Lock followed by a fault-free Unlock
      succeeds, restores every entry below the directory exactly and
      removes the key file.  The two runs may walk in different orders. */
  lemma LockThenUnlock(fs: FS, lockDir: Path, keyDir: Path, env1: Env, key: seq<Byte>,
                       nonces: nat -> Cipher.Nonce, c: Crypto, env2: Env)
    requires Cipher.Sound(c.aead) && |key| == KeySize
    requires WellFormed(fs) && Absent(fs, MarkerPath(lockDir)) && !Under(lockDir, keyDir)
    requires Apart(env1.tmp, lockDir) && ValidOrder(env1.order)
    requires Absent(fs, env1.tmp) && TempName(env1.tmp) && TempParent(fs, env1.tmp)
    requires env2.faults == NoFaults && !env2.tmpFails && ValidOrder(env2.order) && lockDir != env2.sysTmp
    requires Apart(env2.tmp, lockDir)
    ensures var l := Lock(fs, lockDir, keyDir, env1, key, nonces, c);
      (&& l.Returned? && l.code == Success
       && Absent(l.fs, env2.tmp) && TempParent(l.fs, env2.tmp)) ==>
        var u := Unlock(l.fs, lockDir, keyDir, env2, c);
        var name := KeyName(c, key, fs, lockDir, Walk(fs, lockDir, env1.order));
        && u.Returned? && u.code == Success
        && SameTree(u.fs, lockDir, fs, lockDir)
        && keyDir + [name] !in u.fs
        && forall q :: (&& !Under(lockDir, q) && !Under(env1.tmp, q) && !Under(env2.tmp, q)
                        && q != keyDir + [name]) ==> Agree(u.fs, fs, q)
  {
    var l := Lock(fs, lockDir, keyDir, env1, key, nonces, c);
    if l.Returned? && l.code == Success && Absent(l.fs, env2.tmp) && TempParent(l.fs, env2.tmp) {
      LockThenUnlockSuccess(fs, lockDir, keyDir, env1, key, nonces, c, env2);
    }
  }

  lemma LockThenUnlockSuccess(fs: FS, lockDir: Path, keyDir: Path, env1: Env, key: seq<Byte>,
                              nonces: nat -> Cipher.Nonce, c: Crypto, env2: Env)
    requires Cipher.Sound(c.aead) && |key| == KeySize
    requires WellFormed(fs) && Absent(fs, MarkerPath(lockDir)) && !Under(lockDir, keyDir)
    requires Apart(env1.tmp, lockDir) && ValidOrder(env1.order)
    requires Absent(fs, env1.tmp) && TempName(env1.tmp) && TempParent(fs, env1.tmp)
    requires Lock(fs, lockDir, keyDir, env1, key, nonces, c).Returned?
    requires Lock(fs, lockDir, keyDir, env1, key, nonces, c).code == Success
    requires env2.faults == NoFaults && !env2.tmpFails && ValidOrder(env2.order) && lockDir != env2.sysTmp
    requires var fs1 := Lock(fs, lockDir, keyDir, env1, key, nonces, c).fs;
      Apart(env2.tmp, lockDir) && Absent(fs1, env2.tmp) && TempParent(fs1, env2.tmp)
    ensures var fs1 := Lock(fs, lockDir, keyDir, env1, key, nonces, c).fs;
      var u := Unlock(fs1, lockDir, keyDir, env2, c);
      var name := KeyName(c, key, fs, lockDir, Walk(fs, lockDir, env1.order));
      && u.Returned? && u.code == Success
      && SameTree(u.fs, lockDir, fs, lockDir)
      && keyDir + [name] !in u.fs
      && forall q :: (&& !Under(lockDir, q) && !Under(env1.tmp, q) && !Under(env2.tmp, q)
                      && q != keyDir + [name]) ==> Agree(u.fs, fs, q)
  {
    var fs1 := Lock(fs, lockDir, keyDir, env1, key, nonces, c).fs;
    var name := KeyName(c, key, fs, lockDir, Walk(fs, lockDir, env1.order));
    LockSuccess(fs, lockDir, keyDir, env1, key, nonces, c);
    LockSeals(fs, lockDir, keyDir, env1, key, nonces, c);
    KeyFileChildless(fs, fs1, lockDir, keyDir + [name], env1.tmp);
    UnlockOpens(fs1, fs, lockDir, keyDir, name, key, env2, c);
  }

  // ---- the unlock driver ----

  predicate KeyMissing(o: Outcome) {
    o.Returned? && o.code == CantReadKeyFile
  }

  /** The driver's result is decided by the first drive on which the key
      file is readable: every earlier drive is skipped, and that drive's
      outcome ends the run. */
  lemma {:induction false} DriverPicksFirst(fs: FS, drives: seq<Path>, attempt: Path -> Outcome, k: nat)
    requires k < |drives|
    requires forall j :: 0 <= j < k ==> KeyMissing(attempt(drives[j]))
    requires !KeyMissing(attempt(drives[k]))
    ensures UnlockDrives(fs, drives, attempt) == Finish(attempt(drives[k]))
    decreases k
  {
    if k > 0 {
      assert KeyMissing(attempt(drives[0]));
      forall j | 0 <= j < k - 1 ensures KeyMissing(attempt(drives[1..][j])) {
        assert drives[1..][j] == drives[j + 1];
      }
      assert drives[1..][k - 1] == drives[k];
      DriverPicksFirst(fs, drives[1..], attempt, k - 1);
    }
  }

  /** When no attempt itself reports a missing key, the driver reports that
      no key was found exactly when the key file is unreadable on every
      drive, and then nothing has changed. */
  lemma {:induction false} DriverNoKey(fs: FS, drives: seq<Path>, attempt: Path -> Outcome)
    requires forall d :: attempt(d).Halted? ==> attempt(d).reason != NoKeyFound
    ensures var o := UnlockDrives(fs, drives, attempt);
      o.Halted? && o.reason == NoKeyFound <==>
        forall j :: 0 <= j < |drives| ==> KeyMissing(attempt(drives[j]))
    ensures var o := UnlockDrives(fs, drives, attempt);
      o.Halted? && o.reason == NoKeyFound ==> o.fs == fs
    decreases |drives|
  {
    if |drives| > 0 {
      DriverNoKey(fs, drives[1..], attempt);
      forall j | 1 <= j < |drives| ensures drives[j] == drives[1..][j - 1] {}
    }
  }

  /** `unlock` without `-keydir` takes the key from the first drive holding a
      readable key file, and reports no key found, with the tree untouched,
      exactly when there is none. */
  lemma UnlockAnyDriveFacts(fs: FS, dir: Path, drives: seq<Path>, env: Env, c: Crypto)
    requires Apart(env.tmp, dir)
    ensures var o := UnlockAnyDrive(fs, dir, drives, env, c);
      o.Halted? && o.reason == NoKeyFound <==>
        forall j :: 0 <= j < |drives| ==> KeyMissing(Unlock(fs, dir, drives[j], env, c))
    ensures var o := UnlockAnyDrive(fs, dir, drives, env, c);
      o.Halted? && o.reason == NoKeyFound ==> o.fs == fs
    ensures forall k ::
      (&& 0 <= k < |drives|
       && (forall j :: 0 <= j < k ==> KeyMissing(Unlock(fs, dir, drives[j], env, c)))
       && !KeyMissing(Unlock(fs, dir, drives[k], env, c))) ==>
        UnlockAnyDrive(fs, dir, drives, env, c) == Finish(Unlock(fs, dir, drives[k], env, c))
  {
    var attempt := d => Unlock(fs, dir, d, env, c);
    forall d ensures attempt(d).Halted? ==> attempt(d).reason != NoKeyFound {
      var o := Unlock(fs, dir, d, env, c);
    }
    DriverNoKey(fs, drives, attempt);
    forall k | 0 <= k < |drives| &&
      (forall j :: 0 <= j < k ==> KeyMissing(Unlock(fs, dir, drives[j], env, c))) &&
      !KeyMissing(Unlock(fs, dir, drives[k], env, c))
      ensures UnlockAnyDrive(fs, dir, drives, env, c) == Finish(Unlock(fs, dir, drives[k], env, c))
    {
      DriverPicksFirst(fs, drives, attempt, k);
    }
  }

  // ---- the drive loop and the working directory ----

  /** `/home/sub` is locked (its marker is empty) and neither drive holds a
      key file. */
  function DriftFS(): FS {
    map[[] := Dir, ["home"] := Dir, ["home", "sub"] := Dir, ["home", "sub", LockFileName] := File([]),
        ["d1"] := Dir, ["d2"] := Dir]
  }

  /** No faults, and a temporary directory `/tmp/~1` apart from `/home/sub`. */
  function DriftEnv(order: WalkOrder): (env: Env)
    ensures env.faults == NoFaults && env.sysTmp != ["home", "sub"]
    ensures Apart(env.tmp, ["home", "sub"])
  {
    var tmp := ["tmp", "~1"];
    assert tmp[..2][0] != ["home", "sub"][0];
    Env(["tmp"], ["bin"], tmp, false, NoFaults, order, false, false)
  }

  /** Neither drive holds the key file the marker of `/home/sub` names. */
  lemma DriftKeyMissing(c: Crypto, order: WalkOrder, d: Path)
    requires d == ["d1"] || d == ["d2"]
    ensures Unlock(DriftFS(), ["home", "sub"], d, DriftEnv(order), c) == Returned(CantReadKeyFile, DriftFS())
  {
    var fs, env, dir := DriftFS(), DriftEnv(order), ["home", "sub"];
    assert MarkerPath(dir) == ["home", "sub", LockFileName];
    assert ReadFile(fs, MarkerPath(dir), env.faults) == Ok([]);
    assert d + [FromBytes([])] !in fs;
  }

  /** The drive loop as written drifts: run from `/home` with `-dir sub`,
      the first drive lacks the key and leaves the working directory in
      `/home/sub`, so the second attempt looks for `/home/sub/sub` and the
      run halts with code 1; trying `/home/sub` on both drives reports that
      no key was found. */
  lemma DriveLoopDrifts(c: Crypto, order: WalkOrder)
    ensures UnlockDrivesAsWritten(DriftFS(), ["home"], Relative(["sub"]), [["d1"], ["d2"]], DriftEnv(order), c)
      == Halted(DriveFailed(LockDirNotExist), DriftFS())
    ensures UnlockAnyDrive(DriftFS(), ["home", "sub"], [["d1"], ["d2"]], DriftEnv(order), c)
      == Halted(NoKeyFound, DriftFS())
  {
    var fs, env, dir, drives := DriftFS(), DriftEnv(order), ["home", "sub"], [["d1"], ["d2"]];
    DriftKeyMissing(c, order, ["d1"]);
    DriftKeyMissing(c, order, ["d2"]);
    assert Resolve(["home"], Relative(["sub"])) == dir;
    assert Resolve(dir, Relative(["sub"])) == ["home", "sub", "sub"];
    assert !DirExists(fs, ["home", "sub", "sub"]);
    assert drives[1..] == [["d2"]];
    UnlockAnyDriveFacts(fs, dir, drives, env, c);
  }
}

=== FILE: splitter.dfy ===
/** The additive k-of-k splitter of bitsplit.go: `Split` turns a byte string
    into n shares that must all be summed (modulo 256) to recover it, and
    `Join` performs that sum.  The random source is an explicit stream. */
module Splitter {
  import opened Common

  /** An infinite random byte stream; `rand.Read` consumes it in order. */
  type Stream = nat -> Byte

  type Share = seq<Byte>

  /** Unbounded sum; results are reduced modulo 256 where Go wraps a byte. */
  function IntSum(xs: seq<int>): int {
    if |xs| == 0 then 0 else xs[0] + IntSum(xs[1..])
  }

  /** The `m` random bytes drawn for the data byte at position `k`: the
      buffer `rands` of length m is refilled once per data byte. */
  function Draws(stream: Stream, k: nat, m: nat): (d: seq<Byte>)
    ensures |d| == m
  {
    seq(m, i requires 0 <= i < m => stream(k * m + i))
  }

  /** Byte `k` of share `i` when splitting `data` into `n` shares. */
  function ShareByte(data: seq<Byte>, n: nat, stream: Stream, i: nat, k: nat): Byte
    requires 1 <= n && i < n && k < |data|
  {
    if i == 0 then (data[k] - IntSum(Draws(stream, k, n - 1))) % 256
    else stream(k * (n - 1) + (i - 1))
  }

  function Shares(data: seq<Byte>, n: nat, stream: Stream): (s: seq<Share>)
    requires 1 <= n
    ensures |s| == n
  {
    seq(n, i requires 0 <= i < n =>
      seq(|data|, k requires 0 <= k < |data| => ShareByte(data, n, stream, i, k)))
  }

  /** Split: the read error is reported first, then a share count below two;
      otherwise every share has the input's length, share i >= 1 holds the
      (i-1)-th random byte of each position's draw, and share 0 holds the
      data byte minus the sum of that draw. */
  function Split(input: Result<seq<Byte>>, n: nat, stream: Stream): (r: Result<seq<Share>>)
    ensures input.Err? ==> r == Err(Wrapped(ReadingInput, input.error))
    ensures input.Ok? && n < 2 ==> r == Err(Failed(InvalidArgument))
    ensures input.Ok? && n >= 2 ==> r.Ok? && |r.value| == n
    ensures input.Ok? && r.Ok? ==>
      forall i :: 0 <= i < n ==> |r.value[i]| == |input.value|
    ensures input.Ok? && r.Ok? ==>
      forall i, k :: 1 <= i < n && 0 <= k < |input.value| ==>
        r.value[i][k] == Draws(stream, k, n - 1)[i - 1]
    ensures input.Ok? && r.Ok? ==>
      forall k :: 0 <= k < |input.value| ==>
        (r.value[0][k] + IntSum(Draws(stream, k, n - 1))) % 256 == input.value[k]
  {
    match input
    case Err(e) => Err(Wrapped(ReadingInput, e))
    case Ok(data) =>
      if n < 2 then Err(Failed(InvalidArgument))
      else
        var s := Shares(data, n, stream);
        assert forall k :: 0 <= k < |data| ==>
          (s[0][k] + IntSum(Draws(stream, k, n - 1))) % 256 == data[k] by {
          forall k | 0 <= k < |data| {
            SubtractThenAdd(data[k], IntSum(Draws(stream, k, n - 1)));
          }
        }
        Ok(s)
  }

  lemma SubtractThenAdd(b: Byte, s: int)
    ensures ((b - s) % 256 + s) % 256 == b
  {
    var q := (b - s) / 256;
    assert (b - s) % 256 + s == b - 256 * q;
    assert (b - 256 * q) % 256 == b;
  }

  /** Byte `i` of a share, or 0 past its end. */
  function At(s: Share, i: nat): Byte {
    if i < |s| then s[i] else 0
  }

  /** The unreduced sum of byte `i` over all shares. */
  function ColumnSum(shares: seq<Share>, i: nat): int {
    if |shares| == 0 then 0 else At(shares[0], i) + ColumnSum(shares[1..], i)
  }

  /** The length of the longest share. */
  function MaxLen(shares: seq<Share>): (m: nat)
    ensures forall j :: 0 <= j < |shares| ==> |shares[j]| <= m
    ensures |shares| > 0 ==> exists j :: 0 <= j < |shares| && |shares[j]| == m
    ensures |shares| == 0 ==> m == 0
  {
    if |shares| == 0 then 0
    else
      var rest := MaxLen(shares[1..]);
      if |shares[0]| >= rest then |shares[0]|
      else
        assert exists j :: 0 <= j < |shares[1..]| && |shares[1..][j]| == rest;
        var j :| 0 <= j < |shares[1..]| && |shares[1..][j]| == rest;
        assert |shares[j + 1]| == rest;
        rest
  }

  /** The byte-wise modular sum of the shares, zero-padded to the longest. */
  function Combine(shares: seq<Share>): seq<Byte> {
    seq(MaxLen(shares), i requires 0 <= i < MaxLen(shares) => ColumnSum(shares, i) % 256)
  }

  /** The first read failure among the shares, in order. */
  function FirstError(keys: seq<Result<Share>>): (e: Option<Error>)
    ensures e.None? <==> forall j :: 0 <= j < |keys| ==> keys[j].Ok?
    ensures e.Some? ==>
      (exists j :: 0 <= j < |keys| && keys[j] == Err(e.value)
         && forall i :: 0 <= i < j ==> keys[i].Ok?)
  {
    if |keys| == 0 then None
    else if keys[0].Err? then Some(keys[0].error)
    else
      var e := FirstError(keys[1..]);
      if e.Some? then
        var j :| 0 <= j < |keys[1..]| && keys[1..][j] == Err(e.value)
          && forall i :: 0 <= i < j ==> keys[1..][i].Ok?;
        assert keys[j + 1] == Err(e.value);
        e
      else e
  }

  function Values(keys: seq<Result<Share>>): (v: seq<Share>)
    requires forall j :: 0 <= j < |keys| ==> keys[j].Ok?
    ensures |v| == |keys|
  {
    seq(|keys|, j requires 0 <= j < |keys| => keys[j].value)
  }

  /** Shares that were read without error. */
  function Loaded(shares: seq<Share>): (keys: seq<Result<Share>>)
    ensures |keys| == |shares|
    ensures forall j :: 0 <= j < |keys| ==> keys[j] == Ok(shares[j])
  {
    seq(|shares|, j requires 0 <= j < |shares| => Ok(shares[j]))
  }

  /** Join: fewer than two shares is refused before anything is read; the
      first read failure is reported next; otherwise the output has the
      length of the longest share and byte i is the sum modulo 256 of the
      shares' bytes at i, where a share that is too short contributes 0. */
  function Join(keys: seq<Result<Share>>): (r: Result<seq<Byte>>)
    ensures |keys| < 2 ==> r == Err(Failed(InvalidArgument))
    ensures |keys| >= 2 && FirstError(keys).Some? ==>
      r == Err(Wrapped(ReadingShare, FirstError(keys).value))
    ensures |keys| >= 2 && FirstError(keys).None? ==>
      r.Ok? && r.value == Combine(Values(keys))
  {
    if |keys| < 2 then Err(Failed(InvalidArgument))
    else
      match FirstError(keys)
      case Some(e) => Err(Wrapped(ReadingShare, e))
      case None => Ok(Combine(Values(keys)))
  }

  /** The output is as long as the longest share, and byte i adds up exactly
      the shares that reach position i. */
  lemma CombineShape(shares: seq<Share>, i: nat)
    requires |shares| > 0
    ensures forall j :: 0 <= j < |shares| ==> |shares[j]| <= |Combine(shares)|
    ensures exists j :: 0 <= j < |shares| && |shares[j]| == |Combine(shares)|
    ensures i < |Combine(shares)| ==>
      Combine(shares)[i] == IntSum(seq(|shares|, j requires 0 <= j < |shares| =>
        if i < |shares[j]| then shares[j][i] else 0)) % 256
  {
    ColumnSumIsSum(shares, i);
  }

  lemma {:induction false} ColumnSumIsSum(shares: seq<Share>, i: nat)
    ensures ColumnSum(shares, i) == IntSum(seq(|shares|, j requires 0 <= j < |shares| =>
      if i < |shares[j]| then shares[j][i] else 0))
    decreases |shares|
  {
    var xs := seq(|shares|, j requires 0 <= j < |shares| =>
      if i < |shares[j]| then shares[j][i] else 0);
    if |shares| > 0 {
      ColumnSumIsSum(shares[1..], i);
      assert xs[1..] == seq(|shares[1..]|, j requires 0 <= j < |shares[1..]| =>
        if i < |shares[1..][j]| then shares[1..][j][i] else 0);
    }
  }

  // ---- order independence ----

  /** Dropping the first element of `a` and a matching element of `b` keeps
      the two multisets equal. */
  lemma RemoveMatching<T>(a: seq<T>, b: seq<T>, j: nat)
    requires multiset(a) == multiset(b)
    requires 0 < |a| && j < |b| && b[j] == a[0]
    ensures multiset(a[1..]) == multiset(b[..j] + b[j + 1..])
  {
    assert a == [a[0]] + a[1..];
    assert multiset(a[1..]) == multiset(a) - multiset{a[0]};
    assert b == b[..j] + [b[j]] + b[j + 1..];
    assert multiset(b[..j] + b[j + 1..]) == multiset(b) - multiset{b[j]};
  }

  lemma {:induction false} ColumnSumAppend(a: seq<Share>, b: seq<Share>, i: nat)
    ensures ColumnSum(a + b, i) == ColumnSum(a, i) + ColumnSum(b, i)
    decreases |a|
  {
    if |a| > 0 {
      assert (a + b)[1..] == a[1..] + b;
      ColumnSumAppend(a[1..], b, i);
    } else {
      assert a + b == b;
    }
  }

  lemma {:induction false} ColumnSumPermutation(a: seq<Share>, b: seq<Share>, i: nat)
    requires multiset(a) == multiset(b)
    ensures ColumnSum(a, i) == ColumnSum(b, i)
    decreases |a|
  {
    if |a| == 0 {
      assert |b| == |multiset(b)| == 0;
    } else {
      assert a[0] in multiset(b);
      var j :| 0 <= j < |b| && b[j] == a[0];
      var rest := b[..j] + b[j + 1..];
      assert b == b[..j] + [b[j]] + b[j + 1..];
      RemoveMatching(a, b, j);
      ColumnSumPermutation(a[1..], rest, i);
      ColumnSumAppend(b[..j] + [b[j]], b[j + 1..], i);
      ColumnSumAppend(b[..j], [b[j]], i);
      ColumnSumAppend(b[..j], b[j + 1..], i);
      assert ColumnSum([b[j]], i) == At(b[j], i) + ColumnSum([b[j]][1..], i);
    }
  }

  lemma MaxLenPermutation(a: seq<Share>, b: seq<Share>)
    requires multiset(a) == multiset(b)
    ensures MaxLen(a) == MaxLen(b)
  {
    if |a| > 0 {
      var ja :| 0 <= ja < |a| && |a[ja]| == MaxLen(a);
      assert a[ja] in multiset(b);
      var jb :| 0 <= jb < |b| && |b[jb]| == MaxLen(b);
      assert b[jb] in multiset(a);
    } else {
      assert |b| == |multiset(b)| == 0;
    }
  }

  /** Join is a modular sum, so reordering the shares does not change it. */
  lemma JoinOrderIndependent(a: seq<Result<Share>>, b: seq<Result<Share>>)
    requires multiset(a) == multiset(b)
    requires forall j :: 0 <= j < |a| ==> a[j].Ok?
    ensures Join(a) == Join(b)
  {
    assert |a| == |multiset(a)| == |b|;
    forall j | 0 <= j < |b| ensures b[j].Ok? {
      assert b[j] in multiset(a);
    }
    var va, vb := Values(a), Values(b);
    assert multiset(va) == multiset(vb) by {
      assert va == seq(|a|, j requires 0 <= j < |a| => a[j].value);
      ValuesMultiset(a, b);
    }
    MaxLenPermutation(va, vb);
    forall i | 0 <= i < MaxLen(va) ensures ColumnSum(va, i) == ColumnSum(vb, i) {
      ColumnSumPermutation(va, vb, i);
    }
    assert Combine(va) == Combine(vb);
  }

  lemma {:induction false} ValuesMultiset(a: seq<Result<Share>>, b: seq<Result<Share>>)
    requires multiset(a) == multiset(b)
    requires forall j :: 0 <= j < |a| ==> a[j].Ok?
    requires forall j :: 0 <= j < |b| ==> b[j].Ok?
    ensures multiset(Values(a)) == multiset(Values(b))
    decreases |a|
  {
    if |a| == 0 {
      assert |b| == |multiset(b)| == 0;
      assert Values(b) == [];
    } else {
      assert a[0] in multiset(b);
      var j :| 0 <= j < |b| && b[j] == a[0];
      var rest := b[..j] + b[j + 1..];
      assert b == b[..j] + [b[j]] + b[j + 1..];
      RemoveMatching(a, b, j);
      ValuesMultiset(a[1..], rest);
      assert Values(a) == [a[0].value] + Values(a[1..]);
      assert Values(b) == Values(b[..j]) + [b[j].value] + Values(b[j + 1..]);
      assert Values(rest) == Values(b[..j]) + Values(b[j + 1..]);
    }
  }

  // ---- round trip ----

  lemma {:induction false} ColumnOfDraws(shares: seq<Share>, d: seq<Byte>, k: nat)
    requires |shares| == |d|
    requires forall j :: 0 <= j < |shares| ==> k < |shares[j]| && shares[j][k] == d[j]
    ensures ColumnSum(shares, k) == IntSum(d)
    decreases |d|
  {
    if |d| > 0 {
      ColumnOfDraws(shares[1..], d[1..], k);
    }
  }

  /** Joining every share that Split produced, in any random stream and for
      any share count of at least two, gives back the original bytes. */
  lemma SplitJoinRoundTrip(data: seq<Byte>, n: nat, stream: Stream)
    requires n >= 2
    ensures Split(Ok(data), n, stream).Ok?
    ensures Join(Loaded(Split(Ok(data), n, stream).value)) == Ok(data)
  {
    var s := Split(Ok(data), n, stream).value;
    var keys := Loaded(s);
    assert Values(keys) == s;
    assert MaxLen(s) == |data| by {
      var j :| 0 <= j < |s| && |s[j]| == MaxLen(s);
    }
    forall k | 0 <= k < |data| ensures ColumnSum(s, k) % 256 == data[k] {
      var d := Draws(stream, k, n - 1);
      ColumnOfDraws(s[1..], d, k);
      assert ColumnSum(s, k) == s[0][k] + IntSum(d);
    }
    assert Combine(s) == data;
  }
}
